=== FILE: README.md ===
# A verified model of a single-account trading pipeline

This project models, in Dafny, the core of a small C++ trading application. The pipeline runs:

price feed → moving-average signal → pre-trade risk gate → order → fill → position book,

plus a simulated exchange ("venue") behind a connection manager. Every piece is modelled as an immutable value with pure transition functions, each of which returns its result together with the new state:

- Order ids, held process-wide in the source in `Order::nextOrderId`, are threaded explicitly as `nextId`.
- The venue's own `nextOrderId` is a field of the venue value.
- Prices are `real` numbers.
- The one random draw, the ±0.5 move of a quoted price, is a parameter `nudge` in [-0.5, 0.5).

Modules, one per file:

| file | module | models |
|---|---|---|
| common.dfy | `Common` | `Option`, real absolute value |
| decimal.dfy | `Decimal` | `std::to_string` on integers and its inverse |
| market_data.dfy | `MarketData` | `MarketData` records, `calculateMovingAverage` |
| strategy.dfy | `Strategy` | `MovingAvgStrat`: crossover signal, name |
| aggregates.dfy | `Aggregates` | the analytics of `main.cpp` as loop methods |
| orders.dfy | `Orders` | `Order`, the id counter, `OrderManager` |
| risk.dfy | `Risk` | `Position`, `RiskManager`: fills, exposure, validation, repricing |
| venue.dfy | `Venue` | `SimulatedExchange` |
| exchange_manager.dfy | `Exchange` | `ExchangeManager` |

The main results are these:

- Cost basis:
  - a same-side fill conserves quantity × basis plus the fill's notional;
  - an opposite fill keeps the basis and erases a position exactly when it becomes flat;
  - after any list of orders, a symbol's book quantity is the signed sum of its fills.
- Exposure and validation:
  - exposure (Σ|qty·mark|) is computed by a loop proved equal to a map sum;
  - `validateOrder` admits exactly the orders within both limits;
  - validate-then-fill keeps the exposure within the limit, for an order of non-negative quantity and price on a symbol whose held position (if any) is marked at the fill price;
  - the ten-order overexposure scenario accepts exactly five orders.
- Order book: ids are unique and increasing, and cancelling twice fails.
- The venue, over any sequence of its public calls (the simulation helpers `setMarketPrice` and `simulateOrderFill` included):
  - no order is ever left open;
  - cancelling always fails;
  - starting from a fresh venue, with only "buy"/"sell" orders of non-negative quantity and price, balances never go negative;
  - two accepted orders never share an id.
- The manager's gating: after `disconnect`, no call reaches the venue.
- Every analytic in `main.cpp` equals its functional definition. In particular, `calcMovingAvg` and `genTradingSignal` agree with `calculateMovingAverage` and `generateSignal`.

## Model

| member | source | states |
|---|---|---|
| MarketData.MovingAverage | src/MarketData.cpp:45-60 | with fewer matching prices than `periods` (or `periods` negative) the average is 0.0; otherwise average × periods is the sum of the last `periods` matching prices |
| MarketData.MovingAverageIgnoresOtherSymbols | src/MarketData.cpp:46-51 | inserting an observation of another symbol anywhere in the feed leaves the moving average unchanged |
| MarketData.InsertOtherSymbol | src/MarketData.cpp:46-51 | the filtered price and volume sequences of a symbol are unchanged by another symbol's entry anywhere in the feed |
| MarketData.PricesForConcat | src/MarketData.cpp:46-51 | filtering a concatenated feed is the concatenation of the filtered parts, in feed order |
| MarketData.PricesForCounts | src/MarketData.cpp:46-51 | every kept price is the price of a matching entry and every matching entry's price is kept; there are as many kept volumes as kept prices; a feed with no entry for the symbol yields none |
| MarketData.UptrendAverages | src/UnitTests.cpp:38-52 | on prices 100..104 the 3-period average is 103 and the 2-period average is 103.5 |
| MarketData.EmptyFeedAverage | src/UnitTests.cpp:55-59 | an empty feed averages to 0.0 |
| MarketData.LastN | src/MarketData.cpp:56-58 | the window holds exactly the last `n` prices, in order |
| Strategy.Crossover | src/Strategy.cpp:17-23 | 1 iff short > long, -1 iff short < long, 0 iff equal; always a signal |
| Strategy.GenerateSignal | src/Strategy.cpp:9-24 | a signal in {-1, 0, 1}; with both periods non-zero, 1 iff the short-period average exceeds the long-period one and -1 iff it is below; a zero period (a NaN average) holds (0) |
| Strategy.SwapNegatesSignal | src/Strategy.cpp:9-24 | swapping the two periods negates the signal |
| Strategy.EqualPeriodsHold | src/Strategy.cpp:9-24 | equal periods always hold (0) |
| Strategy.InsufficientDataHolds | src/Strategy.cpp:10-11 | too few observations for both windows (an empty feed among them) gives 0 |
| Strategy.UptrendBuys | src/UnitTests.cpp:145-162 | periods (2, 3) on prices 100..104 give BUY (1) |
| Strategy.SignalIgnoresOtherSymbols | src/Strategy.cpp:9-11 | the signal does not depend on other symbols' observations |
| Strategy.StratName | src/Strategy.cpp:26-28 | the name contains the decimal rendering of both periods |
| Decimal.IntToStringInjective | src/Strategy.cpp:27 | distinct integers render to distinct decimal strings (via a parser proved to invert the rendering) |
| Decimal.IntRoundTrip | src/Strategy.cpp:27 | parsing the decimal rendering of any integer gives it back |
| Aggregates.CalcAvgPrice | src/main.cpp:55-69 | the mean of the symbol's prices, 0.0 when there are none |
| Aggregates.FindHighestPrice | src/main.cpp:71-81 | an upper bound of every matching price that is 0.0 or one of them, never negative |
| Aggregates.FindLowestPrice | src/main.cpp:83-93 | 0.0 when no matching price is below 999999; otherwise the least matching price |
| Aggregates.CalcTotalVolume | src/main.cpp:95-103 | the sum of the matching volumes |
| Aggregates.CalcMovingAvg | src/main.cpp:105-124 | equal to `calculateMovingAverage` on the same inputs |
| Aggregates.GenTradingSignal | src/main.cpp:126-143 | equal to `MovingAvgStrat::generateSignal` with the same periods, including the hold on a zero period |
| Orders.EmptyOrderManager | include/Order.h:42-44 | a fresh manager holds no orders and is valid under every value of the id counter |
| Orders.FirstPlacementGetsIdOne | src/Order.cpp:8-12 | the first order placed in a fresh manager, with the counter at its initial value, gets id 1 and is the only entry |
| Orders.NewOrder | src/Order.cpp:8-12 | the order takes the counter value as id, copies its arguments, starts PENDING; the counter advances by one |
| Orders.LaterOrdersHaveLargerIds | src/UnitTests.cpp:79-85 | of two constructions in a row the later has the larger id |
| Orders.PlaceOrder | src/Order.cpp:41-43 | appends exactly one new PENDING order with the next id, earlier entries untouched, and keeps ids increasing and below the counter |
| Orders.IdsDistinct | src/Order.cpp:11 | in a valid manager no two orders share an id |
| Orders.ValidUnderLaterCounter | src/Order.cpp:11 | orders constructed outside the manager only advance the counter and keep the manager valid |
| Orders.FirstCancellable | src/Order.cpp:78-84 | finds the first PENDING order with the id, or reports that none exists |
| Orders.CancelOrder | src/Order.cpp:77-88 | true iff some order with the id is PENDING; exactly the first such becomes CANCELLED; on false nothing changes; FILLED/CANCELLED orders are never altered |
| Orders.CancelKeepsValid | src/Order.cpp:77-88 | cancelling keeps ids increasing and below the counter |
| Orders.CancelTwiceFails | src/Order.cpp:79 | cancelling the same id a second time fails and changes nothing |
| Risk.NewRiskManager | src/RiskManager.cpp:6-8 | an empty book with the given limits (defaults 10000 / 50000) |
| Risk.UpdatePosition | src/RiskManager.cpp:10-38 | a non-FILLED order changes nothing; other symbols untouched; the symbol's net quantity moves by the signed fill; a held entry is kept iff non-flat and only its quantity and basis change |
| Risk.FirstFillOpensPosition | src/RiskManager.cpp:14-23 | a first fill opens (symbol, ±qty, price, price, 0) |
| Risk.SameSideFillAveragesCost | src/RiskManager.cpp:27-30 | a same-side fill adds the quantities and makes basis × new quantity equal old quantity × old basis plus the fill's notional; mark and P&L unchanged |
| Risk.OppositeFillKeepsBasis | src/RiskManager.cpp:31-35 | an opposite fill only moves the quantity, keeping the basis even through zero, and erases the entry exactly when flat |
| Risk.TwoBuysAverage | src/RiskManager.cpp:27-30 | 100 @ 150 then 50 @ 160 holds 150 at 460/3 |
| Risk.FlipThroughZeroKeepsStaleBasis | src/RiskManager.cpp:31-35 | long 10 @ 100 then sell 15 leaves short 5 with basis 100 |
| Risk.NetQuantityTracksFills | src/RiskManager.cpp:10-38 | after any list of orders a symbol's holding is the start plus the signed sum of its FILLED orders |
| Risk.ExposureRemove | src/RiskManager.cpp:99-106 | the exposure sum does not depend on the order in which positions are visited |
| Risk.GetTotalExposure | src/RiskManager.cpp:99-106 | the loop computes Σ abs(qty·mark) over the book, which is non-negative |
| Risk.ValidateOrder | src/RiskManager.cpp:55-71 | accepts iff the order's notional is within the per-order limit and exposure plus notional is within the total limit; ignores `currentPrice`; changes nothing |
| Risk.ValidationExamples | src/UnitTests.cpp:106-118 | limits 1000/5000: BUY 100 @ 50 refused, BUY 10 @ 50 admitted |
| Risk.FillExposureBound | src/RiskManager.cpp:10-38 | for an order of non-negative quantity and price, a fill marked at its own price raises exposure by at most the order's notional, by exactly that for a new symbol |
| Risk.ValidatedFillStaysWithinLimit | src/RiskManager.cpp:55-71 | for an order of non-negative quantity and price, a validated fill marked at its own price keeps exposure within the total limit |
| Risk.NegativeQuantityPassesValidation | src/RiskManager.cpp:55-71 | a buy of −100 at 100 under limits 1000/5000 passes both tests, and its fill leaves an exposure of 10000, twice the total limit |
| Risk.GetPosition | src/RiskManager.cpp:108-111 | absent iff the symbol has no entry (flat); otherwise the stored entry itself, with the net quantity under its own symbol and its basis, mark and P&L |
| Risk.LatestIsLastObservation | src/RiskManager.cpp:43-45 | the scanned price map holds exactly the observed symbols, each at its last observation's price |
| Risk.UpdateMarketPrices | src/RiskManager.cpp:40-53 | same symbols held; an observed position takes its last observation's price and P&L qty·(mark − basis); unobserved positions untouched |
| Risk.OverexposureScenario | src/IntegrationTests.cpp:67-91 | ten rounds of validate-then-fill BUY 10 @ 100 under 1000/5000 accept exactly five (< 10), end with exposure ≤ 5000 and consume six ids |
| Venue.ParseSide | src/ExchangeAPI.cpp:98-103 | "buy" and "sell" exactly, anything else kept as an other side |
| Venue.NewVenue | src/ExchangeAPI.cpp:8-19 | disconnected; USD 10000, AAPL 0, MSFT 0; marks 150.25 and 280.15; no orders; counter 1 |
| Venue.Authenticate | src/ExchangeAPI.cpp:21-37 | succeeds iff the key is non-empty; success connects; failure only records the error and leaves the flag |
| Venue.GetMarketPrice | src/ExchangeAPI.cpp:39-60 | quotes iff connected and the symbol is known, within 0.5 of the mark, and stores the quote; otherwise the error and nothing else changes |
| Venue.SubscribeToMarketData | src/ExchangeAPI.cpp:62-70 | succeeds iff connected, else only the error is recorded |
| Venue.SetMarketPrice | src/ExchangeAPI.cpp:167-169 | sets one mark, leaves the other marks and all other state alone |
| Venue.SetThenQuote | src/ExchangeAPI.cpp:167-169 | a hand-set mark is quoted back within 0.5 |
| Venue.OrderIdInjective | src/ExchangeAPI.cpp:80 | different counter values give different "SIM_n" ids |
| Venue.Touch | src/ExchangeAPI.cpp:98 | reading a balance inserts a zero entry and changes no balance |
| Venue.Credit | src/ExchangeAPI.cpp:178-182 | adds the amount to one asset, others unchanged |
| Venue.Settle | src/ExchangeAPI.cpp:175-183 | a buy pays q·p cash and receives q units; any other side receives q·p and gives up q units; no other asset moves |
| Venue.SimulateOrderFill | src/ExchangeAPI.cpp:171-190 | only balances and orders change and the list keeps its length; with no open order of that id nothing changes; otherwise the first open order with the id (as `FirstOpen` locates it) becomes filled, no other order changes, and exactly that order is settled |
| Venue.FillTouchesFirstOpenOnly | src/ExchangeAPI.cpp:171-190 | only the first open order with the id becomes filled and only it is settled; with none, nothing changes |
| Venue.CheckedBalances | src/ExchangeAPI.cpp:98-106 | the funding check reads (and zero-inserts) cash for a buy, the symbol for a sell, nothing otherwise |
| Venue.PlaceOrder | src/ExchangeAPI.cpp:72-117 | disconnected fails before the counter moves; connected advances the counter; returns "SIM_n" iff funded; a refusal leaves orders and balances as they were, with the refusal text |
| Venue.PlacedOrderSettles | src/ExchangeAPI.cpp:108-116 | an accepted order is appended already filled and settled at its own quantity and price; nothing stays open |
| Venue.CancelOrder | src/ExchangeAPI.cpp:119-135 | true iff connected and an open order has the id; exactly the first becomes cancelled; otherwise only the error changes |
| Venue.OpenOnly | src/ExchangeAPI.cpp:140-144 | keeps exactly the open orders; a one-element list is kept iff its order is open |
| Venue.OpenOnlyConcat | src/ExchangeAPI.cpp:140-144 | the open orders of a concatenation are those of the first part followed by those of the second, so list order and multiplicity are kept |
| Venue.GetOpenOrders | src/ExchangeAPI.cpp:137-147 | exactly the open orders, in list order (the `OpenOnly` filter of the venue's list), with no connection check |
| Venue.OpenOrdersInListOrder | src/ExchangeAPI.cpp:137-147 | for a venue whose list is `a + b`, the listing is the open orders of `a` followed by those of `b` |
| Venue.GetAccountBalance | src/ExchangeAPI.cpp:149-157 | the balances iff connected, otherwise the error and nothing else |
| Venue.FillWithNothingOpen | src/ExchangeAPI.cpp:171-190 | with no order open, `simulateOrderFill` of any id leaves the venue unchanged |
| Venue.RunKeepsNoOpenOrders | src/ExchangeAPI.cpp:114 | no sequence of venue calls leaves an order open |
| Venue.NoneOpenNoneListed | src/ExchangeAPI.cpp:140-144 | a list with no open order lists no open orders |
| Venue.OpenOrdersStayEmpty | src/ExchangeAPI.cpp:125-146 | from a fresh venue, after any calls, `getOpenOrders` is empty and every cancel fails |
| Venue.SettleKeepsNonNegative | src/ExchangeAPI.cpp:97-106 | settling a funded buy/sell of non-negative size and price keeps every balance non-negative |
| Venue.StepKeepsNonNegative | src/ExchangeAPI.cpp:97-116 | one venue call, whose order (if any) is a "buy"/"sell" of non-negative quantity and price, keeps every balance non-negative on a venue with no open order |
| Venue.PlaceKeepsNonNegative | src/ExchangeAPI.cpp:97-116 | a "buy"/"sell" placement of non-negative size and price keeps every balance non-negative |
| Venue.RunKeepsNonNegative | src/ExchangeAPI.cpp:97-116 | from a fresh venue, calls with only "buy"/"sell" orders of non-negative size and price never make a balance negative |
| Venue.OtherSideSettlesAsSell | src/ExchangeAPI.cpp:177-183 | on a connected venue with no open order, a side other than "buy"/"sell" on a symbol other than USD skips the balance checks, is accepted under the next id, and settles as a sell |
| Venue.UpperCaseBuyGoesShort | src/ExchangeAPI.cpp:177-183 | "BUY" 1 AAPL @ 150 on a fresh venue is accepted and leaves AAPL at -1, USD at 10150 |
| Venue.StepCounter | src/ExchangeAPI.cpp:80 | no call decreases the venue counter; a connected placement advances it by one |
| Venue.RunCounter | src/ExchangeAPI.cpp:80 | the venue counter never decreases over any sequence of calls |
| Venue.PlacedIdsDiffer | src/ExchangeAPI.cpp:80 | two accepted placements, with any calls in between, return different ids |
| Venue.OrderPlacementExample | src/UnitTests.cpp:205-214 | logged in, buying 10 AAPL @ 150 returns SIM_1 and leaves USD 8500, AAPL 10 |
| Exchange.IsConnected | src/ExchangeManager.cpp:29-31 | connected exactly when the manager's flag and the venue's flag are both set |
| Exchange.NewExchangeManager | src/ExchangeManager.cpp:5-8 | a fresh venue behind a cleared flag, so not connected |
| Exchange.ConnectToExchange | src/ExchangeManager.cpp:10-22 | returns the authentication result and sets the flag to it; connected iff it succeeded |
| Exchange.Disconnect | src/ExchangeManager.cpp:24-27 | clears the manager's flag and leaves the venue as it is; not connected afterwards whatever the venue's state |
| Exchange.GetLivePrice | src/ExchangeManager.cpp:33-46 | not connected: fails without touching the venue; connected: exactly the venue's quote |
| Exchange.ExecuteLiveOrder | src/ExchangeManager.cpp:48-65 | not connected: "" without touching the venue; connected: exactly the venue's `placeOrder`; an id iff connected and funded |
| Exchange.GetStatus | src/ExchangeManager.cpp:108-114 | the connected text iff `isConnected()`, the disconnected text otherwise |
| Exchange.DisconnectedCallsAreInert | src/ExchangeManager.cpp:29-31 | after `disconnect`, quotes and orders fail without reaching the venue and the status reads disconnected |
| Exchange.FailedReconnectLeavesVenueConnected | src/ExchangeManager.cpp:17-21 | a failed reconnection clears the manager's flag while the venue stays connected |
| Exchange.FullFlow | src/IntegrationTests.cpp:99-120 | connect with a key, quote AAPL (positive), buy 1 at the quote: accepted as SIM_1 |

## Left out

- CSV loading (`loadData` in src/MarketData.cpp and src/main.cpp) is file I/O with `stod`/`stoi`. The feed is a given sequence.
- Console output is not modelled: the `show…`/`display…` functions, `showAccountBalance`, `showLiveOrders`, the printing variants of `generateSignal`, the menus and the `main` loop.
- `showAccountBalance` and `showLiveOrders` only print what `getAccountBalance` and `getOpenOrders` return. Those two calls are modelled.
- Performance monitoring, thread verification, benchmarks, the memory pool and the unit-test framework are outside the pipeline. They deal in timing, threads and raw memory.
- Wall-clock timestamps (`ctime`) on orders and venue orders, and the `sleep_for` in `authenticate`, are dropped.
- The random generator in `getMarketPrice` is replaced by the caller-supplied `nudge` in [-0.5, 0.5). This is the half-open range of `uniform_real_distribution`.
- Floating point: prices, balances and averages are exact reals. Rounding, and the tolerance of the tests' `ASSERT_NEAR`, are not modelled.
- Unqualified `abs` in `getTotalExposure` is taken as the floating-point absolute value. The only global `abs` that libstdc++ is sure to declare there is `int abs(int)`, which would truncate each term, so the reading is a choice.
- Machine integers are unbounded. The 32-bit overflow of quantities, volume sums and the two id counters is not modelled.
- MarketData.MovingAverage: requires `periods != 0`. With a zero period the summing loop runs zero times and the source returns 0.0 / 0, a NaN, which a real number cannot represent.
  - A negative `periods` is modelled as the source behaves: the unsigned comparison makes it always "not enough data", so the result is 0.0.
  - Aggregates.CalcMovingAvg carries the same `periods != 0` requirement, for the same reason.
  - Strategy.GenerateSignal and Aggregates.GenTradingSignal do model a zero period. A NaN average is neither above nor below the other average, so both return 0 (hold).
- Risk.FillExposureBound: the bound is proved only for an order of non-negative quantity and price, and only when the position is marked at the fill price.
  - A position's mark is otherwise free, so no per-fill bound in terms of the order's notional holds.
  - The sign restriction is needed too. `validateOrder` compares the signed order value, so it admits a negative-quantity order whose fill exceeds the limit. Risk.NegativeQuantityPassesValidation exhibits one.
  - The same two restrictions apply to Risk.ValidatedFillStaysWithinLimit.
- Risk.GetPosition: returns a copy of the stored entry. The source returns a `Position*` into the book, a mutable alias, and writes through that pointer are not modelled.
- `isConnected` and `getLastError` on the venue are plain field reads and carry no contract.
- The venue order's side is stored as `Side` (buy, sell, or the other text verbatim) rather than as a string. Status "open"/"filled"/"cancelled" is an enum.

=== FILE: aggregates.dfy ===
/** The standalone analytics of src/main.cpp: per-symbol mean, maximum,
    minimum (with its 999999 sentinel), volume sum, and a second copy of the
    moving average and crossover signal. Each is written as the source's
    single pass over the feed and proved equal to, or characterised by, the
    functional definitions of MarketData and Strategy. */
module Aggregates {
  import opened MarketData
  import opened Strategy

  /** Starting value of the running minimum in `findLowestPrice`. */
  const LowSentinel: real := 999999.0

  lemma PrefixStep(data: seq<PricePoint>, i: int, symbol: string)
    requires 0 <= i < |data|
    ensures PricesFor(data[..i + 1], symbol)
         == PricesFor(data[..i], symbol) + (if data[i].symbol == symbol then [data[i].price] else [])
    ensures VolumesFor(data[..i + 1], symbol)
         == VolumesFor(data[..i], symbol) + (if data[i].symbol == symbol then [data[i].volume] else [])
  {
    assert data[..i + 1][..i] == data[..i];
  }

  /** `calcAvgPrice`: the mean of the symbol's prices, 0.0 when it has none. */
  method CalcAvgPrice(data: seq<PricePoint>, symbol: string) returns (avg: real)
    ensures var ps := PricesFor(data, symbol);
      avg == (if |ps| > 0 then Sum(ps) / (|ps| as real) else 0.0)
  {
    var total := 0.0;
    var count := 0;
    var i := 0;
    while i < |data|
      invariant 0 <= i <= |data|
      invariant total == Sum(PricesFor(data[..i], symbol))
      invariant count == |PricesFor(data[..i], symbol)|
    {
      PrefixStep(data, i, symbol);
      if data[i].symbol == symbol {
        var ps := PricesFor(data[..i + 1], symbol);
        assert ps[..|ps| - 1] == PricesFor(data[..i], symbol);
        assert ps[|ps| - 1] == data[i].price;
        assert Sum(ps) == Sum(ps[..|ps| - 1]) + ps[|ps| - 1];
        total := total + data[i].price;
        count := count + 1;
      } else {
        assert PricesFor(data[..i + 1], symbol) == PricesFor(data[..i], symbol);
      }
      i := i + 1;
    }
    assert data[..|data|] == data;
    avg := if count > 0 then total / (count as real) else 0.0;
  }

  /** `findHighestPrice`: the largest of 0.0 and the symbol's prices. */
  method FindHighestPrice(data: seq<PricePoint>, symbol: string) returns (highest: real)
    ensures highest >= 0.0
    ensures forall p :: p in PricesFor(data, symbol) ==> p <= highest
    ensures highest == 0.0 || highest in PricesFor(data, symbol)
  {
    highest := 0.0;
    var i := 0;
    while i < |data|
      invariant 0 <= i <= |data|
      invariant highest >= 0.0
      invariant forall p :: p in PricesFor(data[..i], symbol) ==> p <= highest
      invariant highest == 0.0 || highest in PricesFor(data[..i], symbol)
    {
      PrefixStep(data, i, symbol);
      if data[i].symbol == symbol && data[i].price > highest {
        highest := data[i].price;
      }
      i := i + 1;
    }
    assert data[..|data|] == data;
  }

  /** `findLowestPrice`: the smallest of the symbol's prices below the
      sentinel, or 0.0 when none is below it. */
  method FindLowestPrice(data: seq<PricePoint>, symbol: string) returns (lowest: real)
    ensures (forall p :: p in PricesFor(data, symbol) ==> p >= LowSentinel) ==> lowest == 0.0
    ensures (exists p :: p in PricesFor(data, symbol) && p < LowSentinel) ==>
      lowest in PricesFor(data, symbol) && forall p :: p in PricesFor(data, symbol) ==> lowest <= p
  {
    var low := LowSentinel;
    var i := 0;
    while i < |data|
      invariant 0 <= i <= |data|
      invariant low <= LowSentinel
      invariant forall p :: p in PricesFor(data[..i], symbol) ==> low <= p
      invariant low == LowSentinel || low in PricesFor(data[..i], symbol)
      invariant low == LowSentinel ==> forall p :: p in PricesFor(data[..i], symbol) ==> p >= LowSentinel
    {
      PrefixStep(data, i, symbol);
      if data[i].symbol == symbol && data[i].price < low {
        low := data[i].price;
      }
      i := i + 1;
    }
    assert data[..|data|] == data;
    lowest := if low == LowSentinel then 0.0 else low;
  }

  /** `calcTotalVolume`: the sum of the symbol's volumes. */
  method CalcTotalVolume(data: seq<PricePoint>, symbol: string) returns (total: int)
    ensures total == IntSum(VolumesFor(data, symbol))
  {
    total := 0;
    var i := 0;
    while i < |data|
      invariant 0 <= i <= |data|
      invariant total == IntSum(VolumesFor(data[..i], symbol))
    {
      PrefixStep(data, i, symbol);
      if data[i].symbol == symbol {
        var vs := VolumesFor(data[..i + 1], symbol);
        assert vs[..|vs| - 1] == VolumesFor(data[..i], symbol);
        assert vs[|vs| - 1] == data[i].volume;
        assert IntSum(vs) == IntSum(vs[..|vs| - 1]) + vs[|vs| - 1];
        total := total + data[i].volume;
      } else {
        assert VolumesFor(data[..i + 1], symbol) == VolumesFor(data[..i], symbol);
      }
      i := i + 1;
    }
    assert data[..|data|] == data;
  }

  /** `calcMovingAvg`: the same value as `calculateMovingAverage`. */
  method CalcMovingAvg(data: seq<PricePoint>, symbol: string, periods: int) returns (ma: real)
    requires periods != 0
    ensures ma == MovingAverage(data, symbol, periods)
  {
    var prices: seq<real> := [];
    var i := 0;
    while i < |data|
      invariant 0 <= i <= |data|
      invariant prices == PricesFor(data[..i], symbol)
    {
      PrefixStep(data, i, symbol);
      if data[i].symbol == symbol {
        prices := prices + [data[i].price];
      }
      i := i + 1;
    }
    assert data[..|data|] == data;
    // `prices.size() < periods` converts a negative `periods` to a huge unsigned value
    if periods < 0 || |prices| < periods {
      return 0.0;
    }
    var sum := 0.0;
    var start := |prices| - periods;
    var j := start;
    while j < |prices|
      invariant start <= j <= |prices|
      invariant sum == Sum(prices[start..j])
    {
      assert prices[start..j + 1][..j - start] == prices[start..j];
      sum := sum + prices[j];
      j := j + 1;
    }
    assert prices[start..|prices|] == LastN(prices, periods);
    ma := sum / (periods as real);
  }

  /** `genTradingSignal`: the same signal as `MovingAvgStrat::generateSignal`
      for the same periods, holding when a period is zero. */
  method GenTradingSignal(data: seq<PricePoint>, symbol: string, shortP: int, longP: int)
    returns (signal: int)
    ensures signal == GenerateSignal(MovingAvgStrat(shortP, longP), data, symbol)
  {
    if shortP == 0 || longP == 0 {
      // 0.0 / 0 is a NaN, which is neither above nor below the other average
      return 0;
    }
    var shortMA := CalcMovingAvg(data, symbol, shortP);
    var longMA := CalcMovingAvg(data, symbol, longP);
    if shortMA > longMA {
      signal := 1;
    } else if shortMA < longMA {
      signal := -1;
    } else {
      signal := 0;
    }
  }
}

=== FILE: common.dfy ===
/** Small shared vocabulary: optional results and real absolute value. */
module Common {

  /** The result of a lookup or of a call that may fail without a value
      (a C++ boolean success flag paired with an out-parameter). */
  datatype Option<T> = None | Some(value: T)

  function Abs(x: real): (r: real)
    ensures r >= 0.0
    ensures r == x || r == -x
  {
    if x < 0.0 then -x else x
  }

  /** |a + b| <= |a| + |b| */
  lemma AbsTriangle(a: real, b: real)
    ensures Abs(a + b) <= Abs(a) + Abs(b)
  {
  }
}

=== FILE: decimal.dfy ===
/** Decimal rendering of integers, as `std::to_string(int)` produces it: an
    optional '-' followed by the digits with no leading zeros. The parser is
    the rendering's inverse, which makes the rendering injective. */
module Decimal {

  predicate IsDigit(c: char) {
    '0' <= c <= '9'
  }

  predicate AllDigits(s: string) {
    forall i :: 0 <= i < |s| ==> IsDigit(s[i])
  }

  function DigitChar(d: int): (c: char)
    requires 0 <= d < 10
    ensures IsDigit(c)
  {
    (('0' as int) + d) as char
  }

  function DigitValue(c: char): (d: int)
    requires IsDigit(c)
    ensures 0 <= d < 10
  {
    (c as int) - ('0' as int)
  }

  /** Most significant digit first; a single '0' for zero. */
  function NatToString(n: nat): (r: string)
    ensures |r| >= 1
    ensures AllDigits(r)
    ensures r[0] != '0' || n == 0
    decreases n
  {
    if n < 10 then [DigitChar(n)] else NatToString(n / 10) + [DigitChar(n % 10)]
  }

  function IntToString(n: int): (r: string)
    ensures |r| >= 1
  {
    if n < 0 then "-" + NatToString(-n) else NatToString(n)
  }

  function ParseNat(s: string): nat
    requires AllDigits(s)
  {
    if |s| == 0 then 0 else 10 * ParseNat(s[..|s| - 1]) + DigitValue(s[|s| - 1])
  }

  /** Inverse of IntToString on its image. */
  function ParseInt(s: string): int
    requires |s| >= 1
    requires s[0] == '-' ==> AllDigits(s[1..])
    requires s[0] != '-' ==> AllDigits(s)
  {
    if s[0] == '-' then 0 - ParseNat(s[1..]) else ParseNat(s)
  }

  lemma {:induction false} ParseNatRendering(n: nat)
    ensures ParseNat(NatToString(n)) == n
    decreases n
  {
    var r := NatToString(n);
    if n >= 10 {
      var front := NatToString(n / 10);
      assert r == front + [DigitChar(n % 10)];
      assert r[..|r| - 1] == front;
      ParseNatRendering(n / 10);
    }
  }

  lemma IntRoundTrip(n: int)
    ensures var s := IntToString(n);
      (s[0] == '-' ==> AllDigits(s[1..])) && (s[0] != '-' ==> AllDigits(s)) && ParseInt(s) == n
  {
    var s := IntToString(n);
    if n < 0 {
      assert s[1..] == NatToString(-n);
      ParseNatRendering(-n);
    } else {
      assert IsDigit(s[0]);
      ParseNatRendering(n);
    }
  }

  /** Distinct integers render to distinct strings. */
  lemma IntToStringInjective(a: int, b: int)
    requires IntToString(a) == IntToString(b)
    ensures a == b
  {
    IntRoundTrip(a);
    IntRoundTrip(b);
  }

  /** `needle` occurs in `hay` as a contiguous substring
      (C++: `hay.find(needle) != std::string::npos`). */
  predicate Contains(hay: string, needle: string) {
    exists i :: 0 <= i <= |hay| && needle <= hay[i..]
  }
}

=== FILE: exchange_manager.dfy ===
/** `ExchangeManager` of src/ExchangeManager.cpp: a flag of its own in front
    of a simulated venue. Every venue call is gated on both the manager's
    flag and the venue's. */
module Exchange {
  import opened Common
  import Venue
  import Decimal

  datatype ExchangeManager = ExchangeManager(connected: bool, venue: Venue.Venue)

  /** A call's result together with the manager afterwards. */
  datatype Outcome<T> = Outcome(value: T, manager: ExchangeManager)

  const ConnectedStatus: string := "🟢 Connected to Exchange (Live Trading Mode)"
  const DisconnectedStatus: string := "🔴 Disconnected from Exchange"

  /** `isConnected()`: the manager's flag and the venue's. */
  predicate IsConnected(m: ExchangeManager)
    ensures IsConnected(m) <==> m.connected && m.venue.connected
  {
    m.connected && Venue.IsConnected(m.venue)
  }

  /** `ExchangeManager()`: a fresh simulated venue behind a cleared flag. */
  function NewExchangeManager(): (m: ExchangeManager)
    ensures !IsConnected(m) && !m.connected && m.venue == Venue.NewVenue()
  {
    ExchangeManager(false, Venue.NewVenue())
  }

  /** `connectToExchange(creds)`: authenticates with the venue and sets the
      flag to the result. */
  function ConnectToExchange(m: ExchangeManager, creds: Venue.Credentials): (r: Outcome<bool>)
    ensures var auth := Venue.Authenticate(m.venue, creds);
      r.value == auth.value && r.manager == ExchangeManager(auth.value, auth.venue)
    ensures r.value <==> creds.apiKey != ""
    ensures IsConnected(r.manager) <==> r.value
  {
    var auth := Venue.Authenticate(m.venue, creds);
    Outcome(auth.value, ExchangeManager(auth.value, auth.venue))
  }

  /** `disconnect()`: clears the manager's flag only. */
  function Disconnect(m: ExchangeManager): (r: ExchangeManager)
    ensures !IsConnected(r)
    // the manager's own flag is cleared whatever the venue's state
    ensures !r.connected
    ensures r.venue == m.venue
  {
    m.(connected := false)
  }

  /** `getLivePrice(symbol, price)`: the venue's quote when connected; the
      venue is not called otherwise. */
  function GetLivePrice(m: ExchangeManager, symbol: string, nudge: real): (r: Outcome<Option<real>>)
    requires -0.5 <= nudge < 0.5
    ensures !IsConnected(m) ==> r == Outcome(None, m)
    ensures IsConnected(m) ==>
      var quote := Venue.GetMarketPrice(m.venue, symbol, nudge);
      r == Outcome(quote.value, m.(venue := quote.venue))
    ensures r.value.Some? <==> IsConnected(m) && symbol in m.venue.marks
  {
    if !IsConnected(m) then Outcome(None, m)
    else
      var quote := Venue.GetMarketPrice(m.venue, symbol, nudge);
      Outcome(quote.value, m.(venue := quote.venue))
  }

  /** `executeLiveOrder(symbol, side, quantity, price)`: the venue's order id
      when connected, "" without calling the venue otherwise. */
  function ExecuteLiveOrder(m: ExchangeManager, symbol: string, side: string, quantity: real, price: real)
    : (r: Outcome<string>)
    ensures !IsConnected(m) ==> r == Outcome("", m)
    ensures IsConnected(m) ==>
      var placed := Venue.PlaceOrder(m.venue, symbol, side, quantity, price);
      r == Outcome(placed.value, m.(venue := placed.venue))
    ensures r.value != "" <==>
      IsConnected(m) && Venue.Funded(m.venue.balances, symbol, Venue.ParseSide(side), quantity, price)
    ensures r.value != "" ==> r.manager.venue.lastError == m.venue.lastError
  {
    if !IsConnected(m) then Outcome("", m)
    else
      var placed := Venue.PlaceOrder(m.venue, symbol, side, quantity, price);
      Outcome(placed.value, m.(venue := placed.venue))
  }

  /** `getStatus()`: one of two texts, chosen by `isConnected()`. */
  function GetStatus(m: ExchangeManager): (s: string)
    ensures s == ConnectedStatus <==> IsConnected(m)
    ensures s == DisconnectedStatus <==> !IsConnected(m)
  {
    if IsConnected(m) then ConnectedStatus else DisconnectedStatus
  }

  /** After `disconnect`, whatever the venue's own state, quotes and orders
      fail without reaching the venue, and the status reads disconnected. */
  lemma DisconnectedCallsAreInert(m: ExchangeManager, symbol: string, nudge: real,
                                  side: string, quantity: real, price: real)
    requires -0.5 <= nudge < 0.5
    ensures var d := Disconnect(m);
      GetLivePrice(d, symbol, nudge) == Outcome(None, d)
      && ExecuteLiveOrder(d, symbol, side, quantity, price) == Outcome("", d)
      && d.venue == m.venue
      && GetStatus(d) == DisconnectedStatus
  {
  }

  /** A failed reconnection clears the manager's flag although the venue,
      which a failed authentication does not disconnect, stays connected. */
  lemma FailedReconnectLeavesVenueConnected(m: ExchangeManager, creds: Venue.Credentials)
    requires creds.apiKey == "" && IsConnected(m)
    ensures var r := ConnectToExchange(m, creds);
      !r.value && !IsConnected(r.manager) && Venue.IsConnected(r.manager.venue)
  {
  }

  /** Connect with key "test-integration", quote AAPL, buy one at the quoted
      price: the connection succeeds, the quote is positive, and the order
      is accepted as SIM_1. */
  lemma FullFlow(nudge: real)
    requires -0.5 <= nudge < 0.5
    ensures var c := ConnectToExchange(NewExchangeManager(), Venue.Credentials("test-integration", "", "", true));
      var q := GetLivePrice(c.manager, "AAPL", nudge);
      c.value && q.value.Some? && q.value.value > 0.0 &&
      ExecuteLiveOrder(q.manager, "AAPL", "buy", 1.0, q.value.value).value == "SIM_1"
  {
    var c := ConnectToExchange(NewExchangeManager(), Venue.Credentials("test-integration", "", "", true));
    var q := GetLivePrice(c.manager, "AAPL", nudge);
    assert q.value.value == 150.25 + nudge;
    assert Venue.OrderIdText(1) == "SIM_1" by {
      assert Decimal.IntToString(1) == "1";
    }
  }
}

=== FILE: market_data.dfy ===
/** The price feed (`MarketData` records) and the simple moving average of
    src/MarketData.cpp. The feed is an already-materialised sequence; its CSV
    ingestion is outside this model. */
module MarketData {

  /** One observation: `Time`, `Abb` (the symbol), `price`, `volume`. */
  datatype PricePoint = PricePoint(time: string, symbol: string, price: real, volume: int)

  /** Prices of the entries for `symbol`, in feed order. */
  function PricesFor(data: seq<PricePoint>, symbol: string): seq<real>
    decreases |data|
  {
    if |data| == 0 then []
    else
      var last := data[|data| - 1];
      PricesFor(data[..|data| - 1], symbol) + (if last.symbol == symbol then [last.price] else [])
  }

  /** Volumes of the entries for `symbol`, in feed order. */
  function VolumesFor(data: seq<PricePoint>, symbol: string): seq<int>
    decreases |data|
  {
    if |data| == 0 then []
    else
      var last := data[|data| - 1];
      VolumesFor(data[..|data| - 1], symbol) + (if last.symbol == symbol then [last.volume] else [])
  }

  function Sum(xs: seq<real>): real
    decreases |xs|
  {
    if |xs| == 0 then 0.0 else Sum(xs[..|xs| - 1]) + xs[|xs| - 1]
  }

  function IntSum(xs: seq<int>): int
    decreases |xs|
  {
    if |xs| == 0 then 0 else IntSum(xs[..|xs| - 1]) + xs[|xs| - 1]
  }

  /** The last `n` elements of `xs` (requires enough of them). */
  function LastN(xs: seq<real>, n: nat): (w: seq<real>)
    requires n <= |xs|
    ensures |w| == n
    ensures forall i :: 0 <= i < n ==> w[i] == xs[|xs| - n + i]
  {
    xs[|xs| - n..]
  }

  /** `calculateMovingAverage(data, symbol, periods)`. The size check compares
      an unsigned size with the signed `periods`, so a negative `periods` is
      converted to a huge unsigned value and always reads as "not enough
      data". Only `periods == 0` reaches the division by zero. */
  function MovingAverage(data: seq<PricePoint>, symbol: string, periods: int): (ma: real)
    requires periods != 0
    // too few matching observations (or a negative `periods`): 0.0
    ensures !HasWindow(data, symbol, periods) ==> ma == 0.0
    // otherwise the mean of the last `periods` matching prices
    ensures HasWindow(data, symbol, periods) ==>
      ma * (periods as real) == Sum(LastN(PricesFor(data, symbol), periods))
  {
    var ps := PricesFor(data, symbol);
    if periods < 0 || |ps| < periods then 0.0
    else
      var s := Sum(LastN(ps, periods));
      DivMul(s, periods as real);
      s / (periods as real)
  }

  /** Enough matching observations for a `periods`-long window. */
  predicate HasWindow(data: seq<PricePoint>, symbol: string, periods: int) {
    0 < periods <= |PricesFor(data, symbol)|
  }

  // ---------------------------------------------------------------------------
  // Filtering by symbol

  lemma {:induction false} PricesForConcat(a: seq<PricePoint>, b: seq<PricePoint>, symbol: string)
    ensures PricesFor(a + b, symbol) == PricesFor(a, symbol) + PricesFor(b, symbol)
    ensures VolumesFor(a + b, symbol) == VolumesFor(a, symbol) + VolumesFor(b, symbol)
    decreases |b|
  {
    if |b| == 0 {
      assert a + b == a;
    } else {
      var b' := b[..|b| - 1];
      assert (a + b)[..|a + b| - 1] == a + b';
      assert (a + b)[|a + b| - 1] == b[|b| - 1];
      PricesForConcat(a, b', symbol);
    }
  }

  /** The entries kept for `symbol` are exactly those whose symbol matches:
      each kept price is the price of a matching entry, every matching entry's
      price is kept, and there are as many kept volumes as kept prices. */
  lemma {:induction false} PricesForCounts(data: seq<PricePoint>, symbol: string)
    ensures |PricesFor(data, symbol)| == |VolumesFor(data, symbol)|
    ensures forall p :: p in PricesFor(data, symbol) ==>
      exists i :: 0 <= i < |data| && data[i].symbol == symbol && data[i].price == p
    ensures forall i :: 0 <= i < |data| && data[i].symbol == symbol ==> data[i].price in PricesFor(data, symbol)
    ensures (forall i :: 0 <= i < |data| ==> data[i].symbol != symbol) ==> PricesFor(data, symbol) == []
    ensures (forall i :: 0 <= i < |data| ==> data[i].symbol != symbol) ==> VolumesFor(data, symbol) == []
    decreases |data|
  {
    if |data| > 0 {
      var front := data[..|data| - 1];
      var last := data[|data| - 1];
      assert forall i :: 0 <= i < |front| ==> front[i] == data[i];
      PricesForCounts(front, symbol);
      forall p | p in PricesFor(data, symbol)
        ensures exists i :: 0 <= i < |data| && data[i].symbol == symbol && data[i].price == p
      {
        if p in PricesFor(front, symbol) {
          var i :| 0 <= i < |front| && front[i].symbol == symbol && front[i].price == p;
          assert data[i] == front[i];
        } else {
          assert data[|data| - 1].symbol == symbol && data[|data| - 1].price == p;
        }
      }
      forall i | 0 <= i < |data| && data[i].symbol == symbol
        ensures data[i].price in PricesFor(data, symbol)
      {
        if i < |front| {
          assert front[i] == data[i];
        }
      }
    }
  }

  /** Inserting an entry for another symbol anywhere in the feed leaves the
      filtered price and volume sequences of `symbol` unchanged. */
  lemma InsertOtherSymbol(a: seq<PricePoint>, x: PricePoint, b: seq<PricePoint>, symbol: string)
    requires x.symbol != symbol
    ensures PricesFor(a + [x] + b, symbol) == PricesFor(a + b, symbol)
    ensures VolumesFor(a + [x] + b, symbol) == VolumesFor(a + b, symbol)
  {
    PricesForConcat(a + [x], b, symbol);
    PricesForConcat(a, [x], symbol);
    PricesForConcat(a, b, symbol);
    assert [x][..0] == [];
  }

  // ---------------------------------------------------------------------------
  // Moving average

  lemma DivMul(s: real, p: real)
    requires p > 0.0
    ensures s / p * p == s
  {
  }

  /** Interleaving observations of other symbols never changes the moving
      average of `symbol`. */
  lemma MovingAverageIgnoresOtherSymbols(a: seq<PricePoint>, x: PricePoint, b: seq<PricePoint>,
                                         symbol: string, periods: int)
    requires periods != 0
    requires x.symbol != symbol
    ensures MovingAverage(a + [x] + b, symbol, periods) == MovingAverage(a + b, symbol, periods)
  {
    InsertOtherSymbol(a, x, b, symbol);
  }

  /** Prices 100, 101, 102, 103, 104 for one symbol: the 3-period average is
      103 and the 2-period average is 103.5. */
  function Uptrend(symbol: string): seq<PricePoint> {
    [PricePoint("", symbol, 100.0, 0), PricePoint("", symbol, 101.0, 0),
     PricePoint("", symbol, 102.0, 0), PricePoint("", symbol, 103.0, 0),
     PricePoint("", symbol, 104.0, 0)]
  }

  lemma UptrendPrices(symbol: string)
    ensures PricesFor(Uptrend(symbol), symbol) == [100.0, 101.0, 102.0, 103.0, 104.0]
  {
    var d := Uptrend(symbol);
    assert d[..1][..0] == [];
    assert d[..2][..1] == d[..1];
    assert d[..3][..2] == d[..2];
    assert d[..4][..3] == d[..3];
    assert d[..4] == d[..|d| - 1];
    assert PricesFor(d[..1], symbol) == [100.0];
    assert PricesFor(d[..2], symbol) == [100.0, 101.0];
    assert PricesFor(d[..3], symbol) == [100.0, 101.0, 102.0];
    assert PricesFor(d[..4], symbol) == [100.0, 101.0, 102.0, 103.0];
  }

  lemma UptrendAverages(symbol: string)
    ensures MovingAverage(Uptrend(symbol), symbol, 3) == 103.0
    ensures MovingAverage(Uptrend(symbol), symbol, 2) == 103.5
  {
    UptrendPrices(symbol);
    var ps := [100.0, 101.0, 102.0, 103.0, 104.0];
    assert LastN(ps, 3) == [102.0, 103.0, 104.0];
    assert LastN(ps, 2) == [103.0, 104.0];
    assert [102.0, 103.0, 104.0][..2] == [102.0, 103.0];
    assert [102.0, 103.0][..1] == [102.0];
    assert [103.0, 104.0][..1] == [103.0];
    assert Sum([102.0, 103.0, 104.0]) == 309.0;
    assert Sum([103.0, 104.0]) == 207.0;
  }

  lemma EmptyFeedAverage(symbol: string, periods: int)
    requires periods != 0
    ensures MovingAverage([], symbol, periods) == 0.0
  {
  }
}

=== FILE: orders.dfy ===
/** Orders and the order book of src/Order.cpp.

    The C++ `Order::nextOrderId` is one static counter shared by every Order
    ever constructed (including throw-away orders built only for a risk
    check). Here it is an explicit `nextId` threaded through every
    construction: each construction takes it as the order's id and returns it
    incremented by one. */
module Orders {
  import opened Common

  datatype OrderType = Buy | Sell

  datatype OrderStatus = Pending | Filled | Cancelled

  datatype Order = Order(orderId: int, symbol: string, orderType: OrderType,
                         quantity: int, price: real, status: OrderStatus)

  /** The counter value before any Order has been constructed. */
  const FirstOrderId: int := 1

  /** An Order together with the counter value after its construction. */
  datatype Allocation = Allocation(order: Order, nextId: int)

  /** `Order(symbol, type, quantity, price)`: takes the current counter value
      as id, copies its arguments and starts PENDING. */
  function NewOrder(nextId: int, symbol: string, orderType: OrderType, quantity: int, price: real)
    : (a: Allocation)
    ensures a.order.orderId == nextId && a.nextId == nextId + 1
    ensures a.order.symbol == symbol && a.order.orderType == orderType
    ensures a.order.quantity == quantity && a.order.price == price
    ensures a.order.status == Pending
  {
    Allocation(Order(nextId, symbol, orderType, quantity, price, Pending), nextId + 1)
  }

  /** Two constructions in a row: the later order has the larger id. */
  lemma LaterOrdersHaveLargerIds(nextId: int, s1: string, t1: OrderType, q1: int, p1: real,
                                 s2: string, t2: OrderType, q2: int, p2: real)
    ensures var a := NewOrder(nextId, s1, t1, q1, p1);
            var b := NewOrder(a.nextId, s2, t2, q2, p2);
            b.order.orderId > a.order.orderId && b.nextId > a.nextId
  {
  }

  datatype OrderManager = OrderManager(orders: seq<Order>)

  /** The first order a fresh program places gets id 1 and is the manager's
      only entry. */
  lemma FirstPlacementGetsIdOne(symbol: string, orderType: OrderType, quantity: int, price: real)
    ensures var r := PlaceOrder(EmptyOrderManager(), FirstOrderId, symbol, orderType, quantity, price);
      |r.manager.orders| == 1 && r.manager.orders[0].orderId == 1 && r.nextId == 2
  {
  }

  /** A default-constructed `OrderManager`: no orders, so valid under any
      value of the id counter, the initial one included. */
  function EmptyOrderManager(): (r: OrderManager)
    ensures |r.orders| == 0
    ensures forall nextId :: Valid(r, nextId)
  {
    OrderManager([])
  }

  /** Ids strictly increase along the list. */
  predicate IdsIncreasing(orders: seq<Order>) {
    forall i, j :: 0 <= i < j < |orders| ==> orders[i].orderId < orders[j].orderId
  }

  /** Every listed id was handed out before the counter reached `nextId`. */
  predicate IdsBelow(orders: seq<Order>, nextId: int) {
    forall i :: 0 <= i < |orders| ==> orders[i].orderId < nextId
  }

  predicate Valid(m: OrderManager, nextId: int) {
    IdsIncreasing(m.orders) && IdsBelow(m.orders, nextId)
  }

  datatype Placement = Placement(manager: OrderManager, nextId: int)

  /** `OrderManager::placeOrder`: constructs one order (consuming an id) and
      appends it; earlier entries are untouched. */
  function PlaceOrder(m: OrderManager, nextId: int, symbol: string, orderType: OrderType,
                      quantity: int, price: real): (r: Placement)
    ensures |r.manager.orders| == |m.orders| + 1
    ensures r.manager.orders[..|m.orders|] == m.orders
    ensures r.manager.orders[|m.orders|] == Order(nextId, symbol, orderType, quantity, price, Pending)
    ensures r.nextId == nextId + 1
    ensures Valid(m, nextId) ==> Valid(r.manager, r.nextId)
  {
    var a := NewOrder(nextId, symbol, orderType, quantity, price);
    Placement(OrderManager(m.orders + [a.order]), a.nextId)
  }

  /** Constructing orders outside the manager (a caller's candidate order)
      only advances the counter, which keeps the manager valid. */
  lemma ValidUnderLaterCounter(m: OrderManager, nextId: int, laterId: int)
    requires Valid(m, nextId) && nextId <= laterId
    ensures Valid(m, laterId)
  {
  }

  /** In a valid manager no two orders share an id. */
  lemma IdsDistinct(m: OrderManager, nextId: int)
    requires Valid(m, nextId)
    ensures forall i, j :: 0 <= i < |m.orders| && 0 <= j < |m.orders| && i != j ==>
      m.orders[i].orderId != m.orders[j].orderId
  {
    forall i, j | 0 <= i < |m.orders| && 0 <= j < |m.orders| && i != j
      ensures m.orders[i].orderId != m.orders[j].orderId
    {
      if i < j {
        assert m.orders[i].orderId < m.orders[j].orderId;
      } else {
        assert m.orders[j].orderId < m.orders[i].orderId;
      }
    }
  }

  predicate Cancellable(o: Order, id: int) {
    o.orderId == id && o.status == Pending
  }

  /** Index of the first cancellable order with `id` at or after `from`. */
  function FirstCancellable(orders: seq<Order>, id: int, from: nat): (r: Option<nat>)
    requires from <= |orders|
    ensures r.Some? ==> from <= r.value < |orders| && Cancellable(orders[r.value], id)
    ensures r.Some? ==> forall j :: from <= j < r.value ==> !Cancellable(orders[j], id)
    ensures r.None? ==> forall j :: from <= j < |orders| ==> !Cancellable(orders[j], id)
    decreases |orders| - from
  {
    if from == |orders| then None
    else if Cancellable(orders[from], id) then Some(from)
    else FirstCancellable(orders, id, from + 1)
  }

  datatype Cancellation = Cancellation(ok: bool, manager: OrderManager)

  /** `OrderManager::cancelOrder(id)`: the first PENDING order with that id
      becomes CANCELLED; succeeds iff one exists. */
  function CancelOrder(m: OrderManager, id: int): (r: Cancellation)
    ensures r.ok <==> exists i :: 0 <= i < |m.orders| && Cancellable(m.orders[i], id)
    ensures !r.ok ==> r.manager == m
    ensures r.ok ==> exists i :: (0 <= i < |m.orders| && Cancellable(m.orders[i], id)
      && (forall j :: 0 <= j < i ==> !Cancellable(m.orders[j], id))
      && r.manager.orders == m.orders[i := m.orders[i].(status := Cancelled)])
    ensures |r.manager.orders| == |m.orders|
    ensures forall i :: 0 <= i < |m.orders| ==>
      r.manager.orders[i].orderId == m.orders[i].orderId &&
      (m.orders[i].status != Pending ==> r.manager.orders[i] == m.orders[i])
  {
    match FirstCancellable(m.orders, id, 0)
    case None => Cancellation(false, m)
    case Some(i) =>
      Cancellation(true, OrderManager(m.orders[i := m.orders[i].(status := Cancelled)]))
  }

  /** Cancelling keeps the manager valid. */
  lemma CancelKeepsValid(m: OrderManager, nextId: int, id: int)
    requires Valid(m, nextId)
    ensures Valid(CancelOrder(m, id).manager, nextId)
  {
  }

  /** Cancelling the same id twice: the second attempt fails and changes
      nothing, because ids are unique in a valid manager. */
  lemma {:induction false} CancelTwiceFails(m: OrderManager, nextId: int, id: int)
    requires Valid(m, nextId)
    ensures var first := CancelOrder(m, id);
            var second := CancelOrder(first.manager, id);
            !second.ok && second.manager == first.manager
  {
    var first := CancelOrder(m, id);
    var m1 := first.manager;
    if first.ok {
      var i :| 0 <= i < |m.orders| && Cancellable(m.orders[i], id)
        && m1.orders == m.orders[i := m.orders[i].(status := Cancelled)];
      IdsDistinct(m, nextId);
      forall j | 0 <= j < |m1.orders|
        ensures !Cancellable(m1.orders[j], id)
      {
        if j != i {
          assert m.orders[j].orderId != m.orders[i].orderId;
        }
      }
    }
  }
}

=== FILE: risk.dfy ===
/** The position book and pre-trade risk gate of src/RiskManager.cpp. */
module Risk {
  import opened Common
  import opened Orders
  import opened MarketData

  /** One symbol's holding: signed quantity (positive long, negative short),
      cost basis, last mark and unrealized profit/loss. */
  datatype Position = Position(symbol: string, quantity: int, avgPrice: real,
                               currentPrice: real, unrealizedPnL: real)

  /** symbol -> Position; a missing symbol means flat. */
  type Book = map<string, Position>

  datatype RiskManager = RiskManager(positions: Book, maxPositionSize: real, maxTotalExposure: real)

  /** `RiskManager(maxPosSize = 10000.0, maxExposure = 50000.0)`. */
  function NewRiskManager(maxPositionSize: real := 10000.0, maxTotalExposure: real := 50000.0)
    : (rm: RiskManager)
    ensures rm.positions == map[]
    ensures rm.maxPositionSize == maxPositionSize && rm.maxTotalExposure == maxTotalExposure
  {
    RiskManager(map[], maxPositionSize, maxTotalExposure)
  }

  /** Every entry is filed under its own symbol. */
  predicate WellKeyed(book: Book) {
    forall s :: s in book ==> book[s].symbol == s
  }

  /** The signed holding in `symbol`, 0 when there is no entry. */
  function NetQuantity(book: Book, symbol: string): int {
    if symbol in book then book[symbol].quantity else 0
  }

  /** +quantity for a BUY, -quantity for a SELL. */
  function SignedQuantity(order: Order): int {
    if order.orderType == Buy then order.quantity else -order.quantity
  }

  /** Adding to an existing long, or to an existing short. */
  predicate SameSide(held: int, delta: int) {
    (held > 0 && delta > 0) || (held < 0 && delta < 0)
  }

  /** Two books agree on `symbol`: both lack it or both hold the same entry. */
  predicate AgreeOn(a: Book, b: Book, symbol: string) {
    (symbol in a <==> symbol in b) && (symbol in a ==> a[symbol] == b[symbol])
  }

  // ---------------------------------------------------------------------------
  // Fills

  /** `updatePosition(order)`. */
  function UpdatePosition(rm: RiskManager, order: Order): (r: RiskManager)
    ensures r.maxPositionSize == rm.maxPositionSize && r.maxTotalExposure == rm.maxTotalExposure
    // an order that is not FILLED changes nothing
    ensures order.status != Filled ==> r == rm
    // other symbols are untouched
    ensures forall s :: s != order.symbol ==> AgreeOn(r.positions, rm.positions, s)
    // the book tracks the net signed quantity, and keeps no flat entry it did not have
    ensures order.status == Filled ==>
      NetQuantity(r.positions, order.symbol) == NetQuantity(rm.positions, order.symbol) + SignedQuantity(order)
    ensures order.status == Filled && order.symbol in rm.positions ==>
      (order.symbol in r.positions <==> NetQuantity(r.positions, order.symbol) != 0)
    // a fill on an existing position changes only its quantity and cost basis
    ensures order.status == Filled && order.symbol in rm.positions && order.symbol in r.positions ==>
      r.positions == rm.positions[order.symbol := rm.positions[order.symbol].(
        quantity := r.positions[order.symbol].quantity, avgPrice := r.positions[order.symbol].avgPrice)]
    ensures order.status == Filled && order.symbol in rm.positions && order.symbol !in r.positions ==>
      r.positions == rm.positions - {order.symbol}
    ensures WellKeyed(rm.positions) ==> WellKeyed(r.positions)
  {
    if order.status != Filled then rm
    else
      var symbol := order.symbol;
      var delta := SignedQuantity(order);
      if symbol !in rm.positions then
        rm.(positions := rm.positions[symbol := Position(symbol, delta, order.price, order.price, 0.0)])
      else
        var pos := rm.positions[symbol];
        if SameSide(pos.quantity, delta) then
          var totalValue := (pos.quantity as real) * pos.avgPrice + (delta as real) * order.price;
          var q := pos.quantity + delta;
          rm.(positions := rm.positions[symbol := pos.(quantity := q, avgPrice := totalValue / (q as real))])
        else
          var q := pos.quantity + delta;
          if q == 0 then rm.(positions := rm.positions - {symbol})
          else rm.(positions := rm.positions[symbol := pos.(quantity := q)])
  }

  /** First fill for a symbol: a new position at the fill price with no P&L. */
  lemma FirstFillOpensPosition(rm: RiskManager, order: Order)
    requires order.status == Filled && order.symbol !in rm.positions
    ensures var r := UpdatePosition(rm, order);
      order.symbol in r.positions &&
      r.positions[order.symbol] == Position(order.symbol, SignedQuantity(order), order.price, order.price, 0.0)
  {
  }

  /** Adding on the same side: quantities add and the cost basis becomes the
      quantity-weighted average, i.e. quantity * basis is conserved plus the
      fill's notional; the mark and P&L are untouched. */
  lemma SameSideFillAveragesCost(rm: RiskManager, order: Order)
    requires order.status == Filled && order.symbol in rm.positions
    requires SameSide(rm.positions[order.symbol].quantity, SignedQuantity(order))
    ensures var held := rm.positions[order.symbol];
      var r := UpdatePosition(rm, order);
      var delta := SignedQuantity(order);
      order.symbol in r.positions &&
      r.positions[order.symbol].quantity == held.quantity + delta &&
      r.positions[order.symbol].avgPrice * ((held.quantity + delta) as real)
        == (held.quantity as real) * held.avgPrice + (delta as real) * order.price &&
      r.positions[order.symbol].currentPrice == held.currentPrice &&
      r.positions[order.symbol].unrealizedPnL == held.unrealizedPnL
  {
    var held := rm.positions[order.symbol];
    var delta := SignedQuantity(order);
    var q := held.quantity + delta;
    var total := (held.quantity as real) * held.avgPrice + (delta as real) * order.price;
    assert q != 0;
    assert total / (q as real) * (q as real) == total;
  }

  /** Reducing or reversing: only the quantity moves, the cost basis stays
      (even when the fill crosses through zero), and the entry is erased
      exactly when the holding becomes flat. */
  lemma OppositeFillKeepsBasis(rm: RiskManager, order: Order)
    requires order.status == Filled && order.symbol in rm.positions
    requires !SameSide(rm.positions[order.symbol].quantity, SignedQuantity(order))
    ensures var held := rm.positions[order.symbol];
      var r := UpdatePosition(rm, order);
      var q := held.quantity + SignedQuantity(order);
      (q == 0 ==> order.symbol !in r.positions) &&
      (q != 0 ==> order.symbol in r.positions && r.positions[order.symbol] == held.(quantity := q))
  {
  }

  /** 100 @ 150 then 50 @ 160 on one symbol: 150 held at 460/3 = 153.33... */
  lemma TwoBuysAverage(nextId: int)
    ensures var a := NewOrder(nextId, "AAPL", Buy, 100, 150.0);
      var b := NewOrder(a.nextId, "AAPL", Buy, 50, 160.0);
      var r := UpdatePosition(UpdatePosition(NewRiskManager(), a.order.(status := Filled)),
                              b.order.(status := Filled));
      "AAPL" in r.positions &&
      r.positions["AAPL"].quantity == 150 && r.positions["AAPL"].avgPrice == 460.0 / 3.0
  {
    var a := NewOrder(nextId, "AAPL", Buy, 100, 150.0);
    var b := NewOrder(a.nextId, "AAPL", Buy, 50, 160.0);
    var r1 := UpdatePosition(NewRiskManager(), a.order.(status := Filled));
    assert r1.positions["AAPL"] == Position("AAPL", 100, 150.0, 150.0, 0.0);
    var r := UpdatePosition(r1, b.order.(status := Filled));
    assert r.positions["AAPL"].avgPrice == (100.0 * 150.0 + 50.0 * 160.0) / 150.0;
  }

  /** Long 10, sell 15: the position flips to short 5 but keeps the long's
      cost basis. */
  lemma FlipThroughZeroKeepsStaleBasis(nextId: int)
    ensures var a := NewOrder(nextId, "AAPL", Buy, 10, 100.0);
      var b := NewOrder(a.nextId, "AAPL", Sell, 15, 120.0);
      var r := UpdatePosition(UpdatePosition(NewRiskManager(), a.order.(status := Filled)),
                              b.order.(status := Filled));
      "AAPL" in r.positions &&
      r.positions["AAPL"].quantity == -5 && r.positions["AAPL"].avgPrice == 100.0
  {
  }

  /** Fills applied one after another, in list order. */
  function ApplyFills(rm: RiskManager, orders: seq<Order>): RiskManager
    decreases |orders|
  {
    if |orders| == 0 then rm else UpdatePosition(ApplyFills(rm, orders[..|orders| - 1]), orders[|orders| - 1])
  }

  /** Sum of the signed quantities of the FILLED orders for `symbol`. */
  function FilledDelta(orders: seq<Order>, symbol: string): int
    decreases |orders|
  {
    if |orders| == 0 then 0
    else
      var o := orders[|orders| - 1];
      FilledDelta(orders[..|orders| - 1], symbol)
        + (if o.status == Filled && o.symbol == symbol then SignedQuantity(o) else 0)
  }

  /** After any sequence of orders, each symbol's book entry holds the
      starting holding plus the signed sum of that symbol's fills. */
  lemma {:induction false} NetQuantityTracksFills(rm: RiskManager, orders: seq<Order>, symbol: string)
    ensures NetQuantity(ApplyFills(rm, orders).positions, symbol)
         == NetQuantity(rm.positions, symbol) + FilledDelta(orders, symbol)
    decreases |orders|
  {
    if |orders| > 0 {
      NetQuantityTracksFills(rm, orders[..|orders| - 1], symbol);
      var before := ApplyFills(rm, orders[..|orders| - 1]);
      var o := orders[|orders| - 1];
      if o.symbol != symbol {
        assert AgreeOn(UpdatePosition(before, o).positions, before.positions, symbol);
      }
    }
  }

  // ---------------------------------------------------------------------------
  // Exposure

  /** |quantity * mark|: a position's absolute market value. */
  function Notional(p: Position): (v: real)
    ensures v >= 0.0
  {
    Abs((p.quantity as real) * p.currentPrice)
  }

  /** Sum over the book of each position's absolute market value. */
  ghost function Exposure(book: Book): (e: real)
    ensures e >= 0.0
    decreases book.Keys
  {
    if book.Keys == {} then 0.0
    else
      var k :| k in book.Keys;
      Notional(book[k]) + Exposure(book - {k})
  }

  /** The sum does not depend on which entry is taken out first. */
  lemma {:induction false} ExposureRemove(book: Book, k: string)
    requires k in book
    ensures Exposure(book) == Notional(book[k]) + Exposure(book - {k})
    decreases book.Keys
  {
    var j :| j in book.Keys && Exposure(book) == Notional(book[j]) + Exposure(book - {j});
    if j != k {
      ExposureRemove(book - {j}, k);
      ExposureRemove(book - {k}, j);
      assert book - {j} - {k} == book - {k} - {j};
    }
  }

  /** Replacing or inserting one entry changes the exposure by that entry only. */
  lemma ExposureUpdate(book: Book, k: string, v: Position)
    ensures Exposure(book[k := v]) == Exposure(book - {k}) + Notional(v)
  {
    ExposureRemove(book[k := v], k);
    assert book[k := v] - {k} == book - {k};
  }

  lemma ExposureSingleton(k: string, v: Position)
    ensures Exposure(map[k := v]) == Notional(v)
  {
    ExposureUpdate(map[], k, v);
    var empty: Book := map[];
    assert empty[k := v] == map[k := v];
    assert empty - {k} == empty;
  }

  /** `getTotalExposure()`: one pass over the book. */
  method GetTotalExposure(rm: RiskManager) returns (total: real)
    ensures total == Exposure(rm.positions)
    ensures total >= 0.0
  {
    total := 0.0;
    var rest := rm.positions;
    while rest.Keys != {}
      invariant total >= 0.0
      invariant total + Exposure(rest) == Exposure(rm.positions)
      decreases rest.Keys
    {
      var k :| k in rest.Keys;
      ExposureRemove(rest, k);
      total := total + Notional(rest[k]);
      rest := rest - {k};
    }
  }

  /** The order's own notional, quantity * order price. */
  function OrderValue(order: Order): real {
    (order.quantity as real) * order.price
  }

  /** The two limits `validateOrder` enforces. */
  ghost predicate Admits(rm: RiskManager, order: Order) {
    OrderValue(order) <= rm.maxPositionSize
    && Exposure(rm.positions) + OrderValue(order) <= rm.maxTotalExposure
  }

  /** `validateOrder(order, currentPrice)`: `currentPrice` plays no part, and
      the manager is a value the check cannot change. */
  method ValidateOrder(rm: RiskManager, order: Order, currentPrice: real) returns (ok: bool)
    ensures ok <==> Admits(rm, order)
    ensures !ok ==> (OrderValue(order) > rm.maxPositionSize
                     || Exposure(rm.positions) + OrderValue(order) > rm.maxTotalExposure)
  {
    var orderValue := OrderValue(order);
    if orderValue > rm.maxPositionSize {
      return false;
    }
    var exposure := GetTotalExposure(rm);
    if exposure + orderValue > rm.maxTotalExposure {
      return false;
    }
    return true;
  }

  /** Limits 1000 / 5000 on an empty book: BUY 100 @ 50 (worth 5000) is
      refused by the per-order limit, BUY 10 @ 50 (worth 500) is admitted. */
  lemma ValidationExamples(nextId: int)
    ensures var rm := NewRiskManager(1000.0, 5000.0);
      var large := NewOrder(nextId, "AAPL", Buy, 100, 50.0);
      var small := NewOrder(large.nextId, "AAPL", Buy, 10, 50.0);
      !Admits(rm, large.order) && Admits(rm, small.order)
  {
    var empty: Book := map[];
    assert Exposure(empty) == 0.0;
  }

  /** The fill's signed quantity at the fill price is worth the order's notional. */
  lemma SignedNotional(order: Order)
    requires order.quantity >= 0 && order.price >= 0.0
    ensures Abs((SignedQuantity(order) as real) * order.price) == OrderValue(order)
  {
    if order.orderType == Sell {
      assert (SignedQuantity(order) as real) * order.price == -((order.quantity as real) * order.price);
    }
  }

  /** A position `delta` units larger at the same mark is worth at most
      |delta * mark| more. */
  lemma RequantifiedNotional(held: Position, now: Position, delta: int)
    requires now.quantity == held.quantity + delta && now.currentPrice == held.currentPrice
    ensures Notional(now) <= Notional(held) + Abs((delta as real) * held.currentPrice)
  {
    var c := held.currentPrice;
    var a := (held.quantity as real) * c;
    var b := (delta as real) * c;
    Distribute(held.quantity, delta, c);
    NotionalOf(now, held.quantity + delta, c);
    AbsTriangle(a, b);
  }

  lemma Distribute(x: int, y: int, c: real)
    ensures ((x + y) as real) * c == (x as real) * c + (y as real) * c
  {
  }

  lemma ExposureInsert(book: Book, k: string, v: Position)
    requires k !in book
    ensures Exposure(book[k := v]) == Exposure(book) + Notional(v)
  {
    ExposureUpdate(book, k, v);
    assert book - {k} == book;
  }

  lemma ExposureErase(book: Book, k: string)
    requires k in book
    ensures Exposure(book - {k}) <= Exposure(book)
  {
    ExposureRemove(book, k);
  }

  lemma NotionalOf(p: Position, quantity: int, mark: real)
    requires p.quantity == quantity && p.currentPrice == mark
    ensures Notional(p) == Abs((quantity as real) * mark)
  {
  }

  /** A fill opening a new symbol, marked at the fill price, adds exactly
      the order's notional to the exposure. */
  lemma OpenedExposure(book: Book, first: Position, order: Order)
    requires order.quantity >= 0 && order.price >= 0.0 && order.symbol !in book
    requires first.quantity == SignedQuantity(order) && first.currentPrice == order.price
    ensures Exposure(book[order.symbol := first]) == Exposure(book) + OrderValue(order)
  {
    ExposureInsert(book, order.symbol, first);
    FilledNotional(first, order);
  }

  /** A position holding exactly a fill's signed quantity, marked at the
      fill price, is worth the order's notional. */
  lemma FilledNotional(p: Position, order: Order)
    requires order.quantity >= 0 && order.price >= 0.0
    requires p.quantity == SignedQuantity(order) && p.currentPrice == order.price
    ensures Notional(p) == OrderValue(order)
  {
    NotionalOf(p, SignedQuantity(order), order.price);
    SignedNotional(order);
  }

  /** A fill on a held symbol that leaves it open, marked at the fill price,
      raises the exposure by at most the order's notional. */
  lemma ResizedExposure(book: Book, now: Position, order: Order)
    requires order.quantity >= 0 && order.price >= 0.0
    requires order.symbol in book && book[order.symbol].currentPrice == order.price
    requires now.quantity == book[order.symbol].quantity + SignedQuantity(order)
    requires now.currentPrice == order.price
    ensures Exposure(book[order.symbol := now]) <= Exposure(book) + OrderValue(order)
  {
    FillExposureResize(book, order.symbol, now, SignedQuantity(order), order.price);
    SignedNotional(order);
  }

  /** Replacing a position by one with `delta` more units at the same mark
      moves the exposure by at most |delta * mark|. */
  lemma FillExposureResize(book: Book, symbol: string, now: Position, delta: int, mark: real)
    requires symbol in book && book[symbol].currentPrice == mark
    requires now.quantity == book[symbol].quantity + delta && now.currentPrice == mark
    ensures Exposure(book[symbol := now]) <= Exposure(book) + Abs((delta as real) * mark)
  {
    var held := book[symbol];
    ExposureRemove(book, symbol);
    ExposureUpdate(book, symbol, now);
    RequantifiedNotional(held, now, delta);
  }

  /** A fill marked at its own price raises the exposure by at most the
      order's notional; a new symbol raises it by exactly that much. */
  lemma FillExposureBound(rm: RiskManager, order: Order)
    requires order.status == Filled && order.quantity >= 0 && order.price >= 0.0
    requires order.symbol in rm.positions ==> rm.positions[order.symbol].currentPrice == order.price
    ensures Exposure(UpdatePosition(rm, order).positions) <= Exposure(rm.positions) + OrderValue(order)
    ensures order.symbol !in rm.positions ==>
      Exposure(UpdatePosition(rm, order).positions) == Exposure(rm.positions) + OrderValue(order)
  {
    if order.symbol !in rm.positions {
      var first := Position(order.symbol, SignedQuantity(order), order.price, order.price, 0.0);
      assert UpdatePosition(rm, order).positions == rm.positions[order.symbol := first];
      OpenedExposure(rm.positions, first, order);
    } else {
      var book := rm.positions;
      var after := UpdatePosition(rm, order).positions;
      SignedNotional(order);
      if order.symbol !in after {
        ExposureErase(book, order.symbol);
      } else {
        var now := after[order.symbol];
        assert now.quantity == NetQuantity(after, order.symbol);
        assert after == book[order.symbol := now];
        ResizedExposure(book, now, order);
      }
    }
  }

  /** Validate-then-fill stays within the exposure limit when the fill is
      marked at its own price. */
  lemma ValidatedFillStaysWithinLimit(rm: RiskManager, order: Order)
    requires order.status == Filled && order.quantity >= 0 && order.price >= 0.0
    requires order.symbol in rm.positions ==> rm.positions[order.symbol].currentPrice == order.price
    requires Admits(rm, order)
    ensures Exposure(UpdatePosition(rm, order).positions) <= rm.maxTotalExposure
  {
    FillExposureBound(rm, order);
  }

  /** `validateOrder` compares the signed order value with the limits, so a
      buy of a negative quantity passes both tests however large it is; once
      filled, it leaves an exposure of twice the total limit. */
  lemma NegativeQuantityPassesValidation()
    ensures var rm := NewRiskManager(1000.0, 5000.0);
      var order := Order(1, "AAPL", Buy, -100, 100.0, Filled);
      Admits(rm, order) && Exposure(UpdatePosition(rm, order).positions) == 10000.0
  {
  }

  /** `getPosition(symbol)`: absence means flat. */
  function GetPosition(rm: RiskManager, symbol: string): (r: Option<Position>)
    ensures r.None? <==> symbol !in rm.positions
    ensures r.None? ==> NetQuantity(rm.positions, symbol) == 0
    ensures r.Some? ==> r.value.quantity == NetQuantity(rm.positions, symbol)
    ensures r.Some? && WellKeyed(rm.positions) ==> r.value.symbol == symbol
    // the entry handed back is the stored one, basis, mark and P&L included
    ensures r.Some? ==> r.value == rm.positions[symbol]
  {
    if symbol in rm.positions then Some(rm.positions[symbol]) else None
  }

  // ---------------------------------------------------------------------------
  // Marking to market

  /** symbol -> price of its last observation, built by one scan in which later
      entries overwrite earlier ones. */
  function LatestPrices(data: seq<PricePoint>): map<string, real>
    decreases |data|
  {
    if |data| == 0 then map[]
    else
      var last := data[|data| - 1];
      LatestPrices(data[..|data| - 1])[last.symbol := last.price]
  }

  /** Entry `i` is the last observation of `symbol` in `data`. */
  ghost predicate IsLastObservation(data: seq<PricePoint>, i: int, symbol: string) {
    0 <= i < |data| && data[i].symbol == symbol
    && forall j :: i < j < |data| ==> data[j].symbol != symbol
  }

  lemma {:induction false} LatestIsLastObservation(data: seq<PricePoint>)
    ensures forall s :: s in LatestPrices(data) <==> exists i :: 0 <= i < |data| && data[i].symbol == s
    ensures forall s, i :: IsLastObservation(data, i, s) ==>
      s in LatestPrices(data) && LatestPrices(data)[s] == data[i].price
    decreases |data|
  {
    if |data| > 0 {
      var front := data[..|data| - 1];
      var last := data[|data| - 1];
      LatestIsLastObservation(front);
      forall s, i | IsLastObservation(data, i, s)
        ensures s in LatestPrices(data) && LatestPrices(data)[s] == data[i].price
      {
        if i < |data| - 1 {
          assert IsLastObservation(front, i, s);
        }
      }
      forall s | s in LatestPrices(data)
        ensures exists i :: 0 <= i < |data| && data[i].symbol == s
      {
        if s != last.symbol {
          assert s in LatestPrices(front);
          var i :| 0 <= i < |front| && front[i].symbol == s;
          assert data[i].symbol == s;
        }
      }
      forall s | exists i :: 0 <= i < |data| && data[i].symbol == s
        ensures s in LatestPrices(data)
      {
        var i :| 0 <= i < |data| && data[i].symbol == s;
        if i < |data| - 1 {
          assert front[i].symbol == s;
        }
      }
    }
  }

  /** A position marked at `mark`, with P&L recomputed against its basis. */
  function Reprice(p: Position, mark: real): Position {
    p.(currentPrice := mark, unrealizedPnL := (p.quantity as real) * (mark - p.avgPrice))
  }

  /** `updateMarketPrices(marketData)`. */
  function UpdateMarketPrices(rm: RiskManager, data: seq<PricePoint>): (r: RiskManager)
    ensures r.maxPositionSize == rm.maxPositionSize && r.maxTotalExposure == rm.maxTotalExposure
    ensures r.positions.Keys == rm.positions.Keys
    // a position whose symbol is observed takes the price of the last observation
    ensures forall k, i :: k in rm.positions && IsLastObservation(data, i, rm.positions[k].symbol) ==>
      r.positions[k] == Reprice(rm.positions[k], data[i].price)
    // a position whose symbol is not observed is untouched
    ensures forall k :: k in rm.positions && (forall i :: 0 <= i < |data| ==> data[i].symbol != rm.positions[k].symbol) ==>
      r.positions[k] == rm.positions[k]
    ensures WellKeyed(rm.positions) ==> WellKeyed(r.positions)
  {
    var latest := LatestPrices(data);
    LatestIsLastObservation(data);
    rm.(positions := map k | k in rm.positions ::
      if rm.positions[k].symbol in latest then Reprice(rm.positions[k], latest[rm.positions[k].symbol])
      else rm.positions[k])
  }

  // ---------------------------------------------------------------------------
  // The overexposure scenario

  /** The book after `n` fills of BUY 10 @ 100 on one symbol. */
  function LadderBook(n: nat): Book {
    if n == 0 then map[] else map["AAPL" := Position("AAPL", 10 * n, 100.0, 100.0, 0.0)]
  }

  /** Limits 1000 / 5000; up to ten rounds of: construct BUY 10 @ 100,
      validate, and on success mark it FILLED and apply it, stopping at the
      first rejection. Exactly five are accepted, the exposure ends at the
      limit, and six order ids are consumed. */
  method OverexposureScenario(nextId: int) returns (accepted: nat, rm: RiskManager, idAfter: int)
    ensures accepted < 10 && accepted == 5
    ensures Exposure(rm.positions) <= 5000.0
    ensures idAfter == nextId + 6
  {
    rm := NewRiskManager(1000.0, 5000.0);
    accepted := 0;
    idAfter := nextId;
    var i := 0;
    while i < 10
      invariant accepted == i <= 5
      invariant rm == RiskManager(LadderBook(accepted), 1000.0, 5000.0)
      invariant idAfter == nextId + i
      invariant Exposure(rm.positions) == 1000.0 * (accepted as real)
    {
      var a := NewOrder(idAfter, "AAPL", Buy, 10, 100.0);
      idAfter := a.nextId;
      var ok := ValidateOrder(rm, a.order, 100.0);
      if !ok {
        break;
      }
      var filled := a.order.(status := Filled);
      var before := rm;
      rm := UpdatePosition(rm, filled);
      assert rm.positions == LadderBook(accepted + 1) by {
        if accepted > 0 {
          var total := (10 * accepted) as real * 100.0 + 10.0 * 100.0;
          assert total == 100.0 * ((10 * accepted + 10) as real);
        }
      }
      ExposureSingleton("AAPL", rm.positions["AAPL"]);
      accepted := accepted + 1;
      i := i + 1;
    }
  }
}

=== FILE: strategy.dfy ===
/** The moving-average crossover strategy of src/Strategy.cpp. */
module Strategy {
  import opened MarketData
  import opened Decimal

  /** `MovingAvgStrat(shortP, longP)`. */
  datatype MovingAvgStrat = MovingAvgStrat(shortP: int, longP: int)

  /** A signal is 1 (buy), -1 (sell) or 0 (hold). */
  predicate IsSignal(s: int) {
    s == -1 || s == 0 || s == 1
  }

  /** The crossover rule shared by every signal generator of the system. */
  function Crossover(shortMA: real, longMA: real): (s: int)
    ensures IsSignal(s)
    ensures s == 1 <==> shortMA > longMA
    ensures s == -1 <==> shortMA < longMA
    ensures s == 0 <==> shortMA == longMA
  {
    if shortMA > longMA then 1 else if shortMA < longMA then -1 else 0
  }

  /** `MovingAvgStrat::generateSignal(data, symbol)`; the console echo of
      the two averages is not modelled. A zero period makes its average
      0.0 / 0, a NaN, which is neither above nor below the other average, so
      the strategy holds. */
  function GenerateSignal(strat: MovingAvgStrat, data: seq<PricePoint>, symbol: string): (s: int)
    ensures IsSignal(s)
    ensures strat.shortP == 0 || strat.longP == 0 ==> s == 0
    ensures strat.shortP != 0 && strat.longP != 0 ==>
      (s == 1 <==> MovingAverage(data, symbol, strat.shortP) > MovingAverage(data, symbol, strat.longP))
    ensures strat.shortP != 0 && strat.longP != 0 ==>
      (s == -1 <==> MovingAverage(data, symbol, strat.shortP) < MovingAverage(data, symbol, strat.longP))
  {
    if strat.shortP == 0 || strat.longP == 0 then 0
    else Crossover(MovingAverage(data, symbol, strat.shortP), MovingAverage(data, symbol, strat.longP))
  }

  const NamePrefix := "Moving Average Crossover Strategy ("

  /** `getStratName()`: the decimal renderings of both periods appear in it. */
  function StratName(strat: MovingAvgStrat): (name: string)
    ensures Contains(name, IntToString(strat.shortP))
    ensures Contains(name, IntToString(strat.longP))
  {
    var a := IntToString(strat.shortP);
    var b := IntToString(strat.longP);
    var name := NamePrefix + a + "/" + b + ")";
    assert name[|NamePrefix|..] == a + "/" + b + ")";
    assert a <= name[|NamePrefix|..];
    assert name[|NamePrefix| + |a| + 1..] == b + ")";
    assert b <= name[|NamePrefix| + |a| + 1..];
    name
  }

  /** Exchanging the two periods negates the signal. */
  lemma SwapNegatesSignal(shortP: int, longP: int, data: seq<PricePoint>, symbol: string)
    ensures GenerateSignal(MovingAvgStrat(longP, shortP), data, symbol)
         == -GenerateSignal(MovingAvgStrat(shortP, longP), data, symbol)
  {
  }

  /** Equal periods always hold. */
  lemma EqualPeriodsHold(p: int, data: seq<PricePoint>, symbol: string)
    ensures GenerateSignal(MovingAvgStrat(p, p), data, symbol) == 0
  {
  }

  /** Too few observations for both windows: both averages are 0.0 and the
      strategy holds; an empty feed is one such case. */
  lemma InsufficientDataHolds(strat: MovingAvgStrat, data: seq<PricePoint>, symbol: string)
    requires !HasWindow(data, symbol, strat.shortP) && !HasWindow(data, symbol, strat.longP)
    ensures GenerateSignal(strat, data, symbol) == 0
    ensures GenerateSignal(strat, [], symbol) == 0
  {
  }

  /** Prices 100..104 with periods (2, 3): short average 103.5 above long
      average 103, so the strategy buys. */
  lemma UptrendBuys(symbol: string)
    ensures GenerateSignal(MovingAvgStrat(2, 3), Uptrend(symbol), symbol) == 1
  {
    UptrendAverages(symbol);
  }

  /** The signal depends on the other symbols' observations not at all. */
  lemma SignalIgnoresOtherSymbols(strat: MovingAvgStrat, a: seq<PricePoint>, x: PricePoint,
                                  b: seq<PricePoint>, symbol: string)
    requires x.symbol != symbol
    ensures GenerateSignal(strat, a + [x] + b, symbol) == GenerateSignal(strat, a + b, symbol)
  {
    if strat.shortP != 0 && strat.longP != 0 {
      MovingAverageIgnoresOtherSymbols(a, x, b, symbol, strat.shortP);
      MovingAverageIgnoresOtherSymbols(a, x, b, symbol, strat.longP);
    }
  }
}

=== FILE: venue.dfy ===
/** The simulated venue of src/ExchangeAPI.cpp (`SimulatedExchange`): a
    connected flag, a last-error text, an asset -> balance map, the list of
    every order it has accepted, a symbol -> mark map and its own order
    counter. Every call is a function from the venue to its reply and the
    venue afterwards. */
module Venue {
  import opened Common
  import opened Decimal

  /** `ExchangeCredentials`; only the API key is ever inspected. */
  datatype Credentials = Credentials(apiKey: string, secretKey: string, passphrase: string,
                                     sandboxMode: bool)

  /** The `side` text as the venue reads it: exactly "buy", exactly "sell",
      or anything else (kept verbatim). */
  datatype Side = Buy | Sell | Other(text: string)

  function ParseSide(text: string): (side: Side)
    ensures side == Buy <==> text == "buy"
    ensures side == Sell <==> text == "sell"
    ensures side.Other? <==> text != "buy" && text != "sell"
    ensures side.Other? ==> side.text == text
  {
    if text == "buy" then Buy else if text == "sell" then Sell else Other(text)
  }

  /** The venue's order states "open", "filled", "cancelled". */
  datatype VenueStatus = Open | Filled | Cancelled

  /** `ExchangeOrder` without its wall-clock timestamp. */
  datatype VenueOrder = VenueOrder(venueOrderId: string, symbol: string, side: Side,
                                   quantity: real, price: real, status: VenueStatus)

  datatype Venue = Venue(connected: bool, lastError: string, balances: map<string, real>,
                         orders: seq<VenueOrder>, marks: map<string, real>, nextOrderId: int)

  /** A call's return value together with the venue after the call. */
  datatype Reply<T> = Reply(value: T, venue: Venue)

  const NotConnected: string := "Not connected to exchange"

  /** The cash asset every buy pays with and every sell is paid in. */
  const Cash: string := "USD"

  const OrderIdPrefix: string := "SIM_"

  // ---------------------------------------------------------------------------
  // Balances

  /** `accountBalances[asset]` as a read: a missing asset counts as 0. */
  function Balance(balances: map<string, real>, asset: string): real {
    if asset in balances then balances[asset] else 0.0
  }

  /** The side effect of reading `accountBalances[asset]`: a missing asset
      gets a zero entry, and no balance changes. */
  function Touch(balances: map<string, real>, asset: string): (r: map<string, real>)
    ensures r.Keys == balances.Keys + {asset}
    ensures forall a :: Balance(r, a) == Balance(balances, a)
  {
    if asset in balances then balances else balances[asset := 0.0]
  }

  /** `accountBalances[asset] += amount`. */
  function Credit(balances: map<string, real>, asset: string, amount: real): (r: map<string, real>)
    ensures r.Keys == balances.Keys + {asset}
    ensures Balance(r, asset) == Balance(balances, asset) + amount
    ensures forall a :: a != asset ==> Balance(r, a) == Balance(balances, a)
  {
    balances[asset := Balance(balances, asset) + amount]
  }

  /** Two balance maps that report the same balance for every asset (they may
      differ in zero entries). */
  ghost predicate SameBalances(a: map<string, real>, b: map<string, real>) {
    forall asset :: Balance(a, asset) == Balance(b, asset)
  }

  predicate NonNegative(balances: map<string, real>) {
    forall asset :: asset in balances ==> balances[asset] >= 0.0
  }

  // ---------------------------------------------------------------------------
  // Construction, authentication, market data

  /** `SimulatedExchange()`: disconnected, 10000 USD and no AAPL or MSFT,
      marks AAPL 150.25 and MSFT 280.15, no orders, counter at 1. */
  function NewVenue(): (v: Venue)
    ensures !v.connected && v.orders == [] && v.nextOrderId == 1
    ensures v.lastError == ""
    ensures v.balances.Keys == {Cash, "AAPL", "MSFT"}
    ensures Balance(v.balances, Cash) == 10000.0
    ensures Balance(v.balances, "AAPL") == 0.0 && Balance(v.balances, "MSFT") == 0.0
    ensures NonNegative(v.balances) && NoOpenOrders(v)
    ensures v.marks.Keys == {"AAPL", "MSFT"}
    ensures v.marks["AAPL"] == 150.25 && v.marks["MSFT"] == 280.15
  {
    Venue(false, "", map[Cash := 10000.0, "AAPL" := 0.0, "MSFT" := 0.0], [],
          map["AAPL" := 150.25, "MSFT" := 280.15], 1)
  }

  function IsConnected(v: Venue): bool {
    v.connected
  }

  function GetLastError(v: Venue): string {
    v.lastError
  }

  /** `authenticate(creds)`: succeeds iff the API key is non-empty. Success
      connects; failure records the error and leaves the flag as it was (a
      connected venue stays connected). */
  function Authenticate(v: Venue, creds: Credentials): (r: Reply<bool>)
    ensures r.value <==> creds.apiKey != ""
    ensures r.venue.connected <==> v.connected || creds.apiKey != ""
    ensures !r.value ==> r.venue == v.(lastError := "API key is required")
    ensures r.value ==> r.venue == v.(connected := true)
  {
    if creds.apiKey == "" then Reply(false, v.(lastError := "API key is required"))
    else Reply(true, v.(connected := true))
  }

  /** `getMarketPrice(symbol, price)`. The random move of the source is the
      parameter `nudge`, drawn from [-0.5, 0.5). A quote moves the stored
      mark to the quoted price. */
  function GetMarketPrice(v: Venue, symbol: string, nudge: real): (r: Reply<Option<real>>)
    requires -0.5 <= nudge < 0.5
    ensures r.value.Some? <==> v.connected && symbol in v.marks
    ensures r.value.Some? ==>
      Abs(r.value.value - v.marks[symbol]) <= 0.5 && r.venue == v.(marks := v.marks[symbol := r.value.value])
    ensures !v.connected ==> r.venue == v.(lastError := NotConnected)
    ensures v.connected && symbol !in v.marks ==> r.venue == v.(lastError := "Symbol not found: " + symbol)
  {
    if !v.connected then Reply(None, v.(lastError := NotConnected))
    else if symbol !in v.marks then Reply(None, v.(lastError := "Symbol not found: " + symbol))
    else
      var price := v.marks[symbol] + nudge;
      Reply(Some(price), v.(marks := v.marks[symbol := price]))
  }

  /** `subscribeToMarketData(symbol)`: succeeds iff connected; there is no
      subscription state. */
  function SubscribeToMarketData(v: Venue, symbol: string): (r: Reply<bool>)
    ensures r.value <==> v.connected
    ensures r.venue == (if v.connected then v else v.(lastError := NotConnected))
  {
    if !v.connected then Reply(false, v.(lastError := NotConnected)) else Reply(true, v)
  }

  /** `setMarketPrice(symbol, price)`: works whether or not connected. */
  function SetMarketPrice(v: Venue, symbol: string, price: real): (w: Venue)
    ensures symbol in w.marks && w.marks[symbol] == price
    ensures forall s :: s != symbol ==> (s in w.marks <==> s in v.marks)
    ensures forall s :: s != symbol && s in v.marks ==> w.marks[s] == v.marks[s]
    ensures w.(marks := v.marks) == v
  {
    v.(marks := v.marks[symbol := price])
  }

  /** A mark set by hand is quoted back within the random move. */
  lemma SetThenQuote(v: Venue, symbol: string, price: real, nudge: real)
    requires v.connected && -0.5 <= nudge < 0.5
    ensures var r := GetMarketPrice(SetMarketPrice(v, symbol, price), symbol, nudge);
      r.value.Some? && price - 0.5 <= r.value.value < price + 0.5
  {
  }

  // ---------------------------------------------------------------------------
  // Orders

  /** "SIM_" followed by the counter in decimal. */
  function OrderIdText(n: int): (id: string)
    ensures |id| > |OrderIdPrefix| && id[..|OrderIdPrefix|] == OrderIdPrefix
  {
    OrderIdPrefix + IntToString(n)
  }

  /** Different counter values give different order ids. */
  lemma OrderIdInjective(a: int, b: int)
    requires OrderIdText(a) == OrderIdText(b)
    ensures a == b
  {
    assert OrderIdText(a)[|OrderIdPrefix|..] == IntToString(a);
    assert OrderIdText(b)[|OrderIdPrefix|..] == IntToString(b);
    IntToStringInjective(a, b);
  }

  predicate OpenWithId(o: VenueOrder, id: string) {
    o.venueOrderId == id && o.status == Open
  }

  /** Index of the first open order with `id` at or after `from`. */
  function FirstOpen(orders: seq<VenueOrder>, id: string, from: nat): (r: Option<nat>)
    requires from <= |orders|
    ensures r.Some? ==> from <= r.value < |orders| && OpenWithId(orders[r.value], id)
    ensures r.Some? ==> forall j :: from <= j < r.value ==> !OpenWithId(orders[j], id)
    ensures r.None? ==> forall j :: from <= j < |orders| ==> !OpenWithId(orders[j], id)
    decreases |orders| - from
  {
    if from == |orders| then None
    else if OpenWithId(orders[from], id) then Some(from)
    else FirstOpen(orders, id, from + 1)
  }

  /** Whether the balances cover an order: a buy needs quantity * price in
      cash, a sell needs quantity units of the symbol, any other side needs
      nothing. */
  predicate Funded(balances: map<string, real>, symbol: string, side: Side, quantity: real, price: real) {
    (side == Buy ==> Balance(balances, Cash) >= quantity * price)
    && (side == Sell ==> Balance(balances, symbol) >= quantity)
  }

  /** The balance moves of one fill: a buy pays quantity * price in cash and
      receives the units; every other side (a sell, or an unrecognised side)
      receives the cash and gives up the units. Cash is debited or credited
      first, then the symbol, so an order on the cash asset itself sees both. */
  function Settle(balances: map<string, real>, o: VenueOrder): (r: map<string, real>)
    ensures Balance(r, Cash) == Balance(balances, Cash)
      + (if o.side == Buy then -(o.quantity * o.price) else o.quantity * o.price)
      + (if o.symbol == Cash then (if o.side == Buy then o.quantity else -o.quantity) else 0.0)
    ensures o.symbol != Cash && o.side == Buy ==>
      Balance(r, Cash) == Balance(balances, Cash) - o.quantity * o.price
      && Balance(r, o.symbol) == Balance(balances, o.symbol) + o.quantity
    ensures o.symbol != Cash && o.side != Buy ==>
      Balance(r, Cash) == Balance(balances, Cash) + o.quantity * o.price
      && Balance(r, o.symbol) == Balance(balances, o.symbol) - o.quantity
    ensures forall a :: a != Cash && a != o.symbol ==> Balance(r, a) == Balance(balances, a)
    ensures r.Keys == balances.Keys + {Cash, o.symbol}
  {
    var amount := o.quantity * o.price;
    if o.side == Buy then Credit(Credit(balances, Cash, -amount), o.symbol, o.quantity)
    else Credit(Credit(balances, Cash, amount), o.symbol, -o.quantity)
  }

  /** `simulateOrderFill(orderId)`: the first open order with that id settles
      and becomes filled; with no such order nothing happens. */
  function SimulateOrderFill(v: Venue, id: string): (w: Venue)
    ensures w.(balances := v.balances, orders := v.orders) == v
    ensures |w.orders| == |v.orders|
    // no open order with the id: nothing happens
    ensures FirstOpen(v.orders, id, 0).None? ==> w == v
    // otherwise the first open order with the id is filled and settled, and only it
    ensures FirstOpen(v.orders, id, 0).Some? ==>
      var i := FirstOpen(v.orders, id, 0).value;
      w.orders == v.orders[i := v.orders[i].(status := Filled)] && w.balances == Settle(v.balances, v.orders[i])
  {
    match FirstOpen(v.orders, id, 0)
    case None => v
    case Some(i) =>
      v.(balances := Settle(v.balances, v.orders[i]), orders := v.orders[i := v.orders[i].(status := Filled)])
  }

  /** The balances after the funding check has read them: a buy reads the
      cash balance and a sell the symbol's balance, each read inserting a
      zero entry when the asset is missing. */
  function CheckedBalances(balances: map<string, real>, symbol: string, side: Side)
    : (r: map<string, real>)
    ensures SameBalances(r, balances)
    ensures side == Buy ==> r.Keys == balances.Keys + {Cash}
    ensures side == Sell ==> r.Keys == balances.Keys + {symbol}
    ensures side.Other? ==> r == balances
  {
    match side
    case Buy => Touch(balances, Cash)
    case Sell => Touch(balances, symbol)
    case Other(_) => balances
  }

  /** The error text of a refused order. */
  function RefusalText(side: Side, symbol: string): string {
    if side == Buy then "Insufficient USD balance" else "Insufficient " + symbol + " balance"
  }

  /** The fill touches only the first open order with the id, which
      becomes filled, and settles exactly that order; with no open order of
      that id nothing changes. */
  lemma FillTouchesFirstOpenOnly(v: Venue, id: string)
    ensures var w := SimulateOrderFill(v, id);
      ((forall j :: 0 <= j < |v.orders| ==> !OpenWithId(v.orders[j], id)) ==> w == v)
      && ((exists j :: 0 <= j < |v.orders| && OpenWithId(v.orders[j], id)) ==>
        exists i :: (0 <= i < |v.orders| && OpenWithId(v.orders[i], id)
          && (forall j :: 0 <= j < i ==> !OpenWithId(v.orders[j], id))
          && w.orders[i] == v.orders[i].(status := Filled)
          && (forall j :: 0 <= j < |v.orders| && j != i ==> w.orders[j] == v.orders[j])
          && w.balances == Settle(v.balances, v.orders[i])))
  {
  }

  /** `placeOrder(symbol, side, quantity, price)`. Connected, it first takes
      an id from the counter, then refuses an unfunded buy or sell, and
      otherwise records the order as open and settles it at once. Returns
      the id, or "" on failure. */
  function PlaceOrder(v: Venue, symbol: string, side: string, quantity: real, price: real)
    : (r: Reply<string>)
    // disconnected: fails before the counter moves
    ensures !v.connected ==> r == Reply("", v.(lastError := NotConnected))
    ensures v.connected ==>
      r.venue.nextOrderId == v.nextOrderId + 1 && r.venue.connected && r.venue.marks == v.marks
    ensures r.value != "" <==> v.connected && Funded(v.balances, symbol, ParseSide(side), quantity, price)
    ensures r.value != "" ==> r.value == OrderIdText(v.nextOrderId)
    // an accepted order leaves the last error as it was
    ensures r.value != "" ==> r.venue.lastError == v.lastError
    // a refused order leaves no trace but the error, the used id and zero entries
    ensures v.connected && r.value == "" ==>
      r.venue.orders == v.orders && SameBalances(r.venue.balances, v.balances)
      && r.venue.lastError == (if side == "buy" then "Insufficient USD balance"
                               else "Insufficient " + symbol + " balance")
  {
    if !v.connected then Reply("", v.(lastError := NotConnected))
    else
      var id := OrderIdText(v.nextOrderId);
      var s := ParseSide(side);
      var counted := v.(nextOrderId := v.nextOrderId + 1, balances := CheckedBalances(v.balances, symbol, s));
      if !Funded(v.balances, symbol, s, quantity, price) then
        Reply("", counted.(lastError := RefusalText(s, symbol)))
      else
        var placed := counted.(orders := v.orders + [VenueOrder(id, symbol, s, quantity, price, Open)]);
        Reply(id, SimulateOrderFill(placed, id))
  }

  /** `cancelOrder(orderId)`: the first open order with that id becomes
      cancelled; succeeds iff connected and one exists. */
  function CancelOrder(v: Venue, id: string): (r: Reply<bool>)
    ensures r.value <==> v.connected && exists i :: 0 <= i < |v.orders| && OpenWithId(v.orders[i], id)
    ensures !v.connected ==> r.venue == v.(lastError := NotConnected)
    ensures v.connected && !r.value ==>
      r.venue == v.(lastError := "Order not found or already processed: " + id)
    ensures r.value ==> exists i :: (0 <= i < |v.orders| && OpenWithId(v.orders[i], id)
      && (forall j :: 0 <= j < i ==> !OpenWithId(v.orders[j], id))
      && r.venue == v.(orders := v.orders[i := v.orders[i].(status := Cancelled)]))
  {
    if !v.connected then Reply(false, v.(lastError := NotConnected))
    else
      match FirstOpen(v.orders, id, 0)
      case None => Reply(false, v.(lastError := "Order not found or already processed: " + id))
      case Some(i) => Reply(true, v.(orders := v.orders[i := v.orders[i].(status := Cancelled)]))
  }

  /** The open orders of a list, in list order (see `OpenOnlyConcat`). */
  function OpenOnly(orders: seq<VenueOrder>): (r: seq<VenueOrder>)
    ensures |r| <= |orders|
    ensures forall o :: o in r <==> o in orders && o.status == Open
    ensures |orders| == 1 ==> r == (if orders[0].status == Open then orders else [])
    decreases |orders|
  {
    if |orders| == 0 then []
    else
      var last := orders[|orders| - 1];
      var front := OpenOnly(orders[..|orders| - 1]);
      assert orders == orders[..|orders| - 1] + [last];
      if last.status == Open then front + [last] else front
  }

  /** Filtering keeps list order: the open orders of a concatenation are
      those of the first part followed by those of the second. */
  lemma {:induction false} OpenOnlyConcat(a: seq<VenueOrder>, b: seq<VenueOrder>)
    ensures OpenOnly(a + b) == OpenOnly(a) + OpenOnly(b)
    decreases |b|
  {
    if |b| == 0 {
      assert a + b == a;
    } else {
      var front := b[..|b| - 1];
      assert (a + b)[..|a + b| - 1] == a + front;
      assert (a + b)[|a + b| - 1] == b[|b| - 1];
      OpenOnlyConcat(a, front);
    }
  }

  /** `getOpenOrders()`: no connection check; the open orders in list order. */
  function GetOpenOrders(v: Venue): (r: seq<VenueOrder>)
    ensures forall o :: o in r <==> o in v.orders && o.status == Open
    ensures r == OpenOnly(v.orders)
  {
    OpenOnly(v.orders)
  }

  /** Listing the open orders of a venue whose list is `a + b`: first the
      open orders of `a`, then those of `b`. */
  lemma OpenOrdersInListOrder(v: Venue, a: seq<VenueOrder>, b: seq<VenueOrder>)
    requires v.orders == a + b
    ensures GetOpenOrders(v) == OpenOnly(a) + OpenOnly(b)
  {
    OpenOnlyConcat(a, b);
  }

  /** `getAccountBalance(balances)`: a copy of the balances when connected. */
  function GetAccountBalance(v: Venue): (r: Reply<Option<map<string, real>>>)
    ensures r.value.Some? <==> v.connected
    ensures r.value.Some? ==> r.value.value == v.balances && r.venue == v
    ensures r.value.None? ==> r.venue == v.(lastError := NotConnected)
  {
    if !v.connected then Reply(None, v.(lastError := NotConnected)) else Reply(Some(v.balances), v)
  }

  // ---------------------------------------------------------------------------
  // Immediate settlement

  predicate NoOpenOrders(v: Venue) {
    forall i :: 0 <= i < |v.orders| ==> v.orders[i].status != Open
  }

  /** In a list whose only open order is its last, that order is the first
      open one with its id. */
  lemma FirstOpenIsLast(orders: seq<VenueOrder>, o: VenueOrder)
    requires forall i :: 0 <= i < |orders| ==> orders[i].status != Open
    requires o.status == Open
    ensures FirstOpen(orders + [o], o.venueOrderId, 0) == Some(|orders|)
  {
    var all := orders + [o];
    assert OpenWithId(all[|orders|], o.venueOrderId);
  }

  /** Settling the same order against balances that agree everywhere gives
      balances that agree everywhere. */
  lemma SettleSameBalances(a: map<string, real>, b: map<string, real>, o: VenueOrder)
    requires SameBalances(a, b)
    ensures SameBalances(Settle(a, o), Settle(b, o))
  {
    forall asset
      ensures Balance(Settle(a, o), asset) == Balance(Settle(b, o), asset)
    {
      assert Balance(a, asset) == Balance(b, asset);
      assert Balance(a, Cash) == Balance(b, Cash);
    }
  }

  /** With no order left open, an accepted order is appended and settled at
      once: it is the one filled, at its own quantity and price, and nothing
      stays open. */
  lemma PlacedOrderSettles(v: Venue, symbol: string, side: string, quantity: real, price: real)
    requires NoOpenOrders(v)
    ensures var r := PlaceOrder(v, symbol, side, quantity, price);
      var o := VenueOrder(r.value, symbol, ParseSide(side), quantity, price, Open);
      NoOpenOrders(r.venue) &&
      (r.value != "" ==>
        r.venue.orders == v.orders + [o.(status := Filled)] && SameBalances(r.venue.balances, Settle(v.balances, o)))
  {
    var r := PlaceOrder(v, symbol, side, quantity, price);
    if r.value != "" {
      var s := ParseSide(side);
      var id := OrderIdText(v.nextOrderId);
      var o := VenueOrder(id, symbol, s, quantity, price, Open);
      var checked := CheckedBalances(v.balances, symbol, s);
      var placed := v.(nextOrderId := v.nextOrderId + 1, balances := checked, orders := v.orders + [o]);
      assert r.venue == SimulateOrderFill(placed, id);
      FirstOpenIsLast(v.orders, o);
      assert r.venue.balances == Settle(checked, o);
      assert r.venue.orders == (v.orders + [o])[|v.orders| := o.(status := Filled)];
      assert (v.orders + [o])[|v.orders| := o.(status := Filled)] == v.orders + [o.(status := Filled)];
      SettleSameBalances(checked, v.balances, o);
    }
  }

  /** A venue call, as a value; a quote carries its random move. */
  datatype Call =
    | Auth(creds: Credentials)
    | Quote(symbol: string, nudge: real)
    | Subscribe(symbol: string)
    | Place(symbol: string, side: string, quantity: real, price: real)
    | Cancel(id: string)
    | ReadBalances
    | ListOpenOrders
    | Mark(symbol: string, price: real)
    | Fill(id: string)

  predicate WellFormed(c: Call) {
    c.Quote? ==> -0.5 <= c.nudge < 0.5
  }

  /** The venue after one call. */
  function Step(v: Venue, c: Call): Venue
    requires WellFormed(c)
  {
    match c
    case Auth(creds) => Authenticate(v, creds).venue
    case Quote(symbol, nudge) => GetMarketPrice(v, symbol, nudge).venue
    case Subscribe(symbol) => SubscribeToMarketData(v, symbol).venue
    case Place(symbol, side, quantity, price) => PlaceOrder(v, symbol, side, quantity, price).venue
    case Cancel(id) => CancelOrder(v, id).venue
    case ReadBalances => GetAccountBalance(v).venue
    case ListOpenOrders => v
    case Mark(symbol, price) => SetMarketPrice(v, symbol, price)
    case Fill(id) => SimulateOrderFill(v, id)
  }

  predicate AllWellFormed(calls: seq<Call>) {
    forall i :: 0 <= i < |calls| ==> WellFormed(calls[i])
  }

  /** The venue after a sequence of calls, in order. */
  function Run(v: Venue, calls: seq<Call>): Venue
    requires AllWellFormed(calls)
    decreases |calls|
  {
    if |calls| == 0 then v else Step(Run(v, calls[..|calls| - 1]), calls[|calls| - 1])
  }

  lemma StepKeepsNoOpenOrders(v: Venue, c: Call)
    requires WellFormed(c) && NoOpenOrders(v)
    ensures NoOpenOrders(Step(v, c))
  {
    match c
    case Place(symbol, side, quantity, price) =>
      PlacedOrderSettles(v, symbol, side, quantity, price);
    case Fill(id) =>
      FillWithNothingOpen(v, id);
    case _ =>
  }

  /** With no order open, `simulateOrderFill` finds nothing to fill and
      leaves the venue as it was. */
  lemma FillWithNothingOpen(v: Venue, id: string)
    requires NoOpenOrders(v)
    ensures SimulateOrderFill(v, id) == v
  {
    assert FirstOpen(v.orders, id, 0).None?;
  }

  /** Whatever calls are made, no order is ever left open. */
  lemma {:induction false} RunKeepsNoOpenOrders(v: Venue, calls: seq<Call>)
    requires AllWellFormed(calls) && NoOpenOrders(v)
    ensures NoOpenOrders(Run(v, calls))
    decreases |calls|
  {
    if |calls| > 0 {
      RunKeepsNoOpenOrders(v, calls[..|calls| - 1]);
      StepKeepsNoOpenOrders(Run(v, calls[..|calls| - 1]), calls[|calls| - 1]);
    }
  }

  /** From a fresh venue, after any calls: `getOpenOrders` is empty and
      every cancellation fails, even of an id the venue handed out. */
  lemma OpenOrdersStayEmpty(calls: seq<Call>, id: string)
    requires AllWellFormed(calls)
    ensures GetOpenOrders(Run(NewVenue(), calls)) == []
    ensures !CancelOrder(Run(NewVenue(), calls), id).value
  {
    var v := Run(NewVenue(), calls);
    RunKeepsNoOpenOrders(NewVenue(), calls);
    NothingOpenListed(v);
  }

  lemma NothingOpenListed(v: Venue)
    requires NoOpenOrders(v)
    ensures GetOpenOrders(v) == []
  {
    NoneOpenNoneListed(v.orders);
  }

  lemma {:induction false} NoneOpenNoneListed(orders: seq<VenueOrder>)
    requires forall i :: 0 <= i < |orders| ==> orders[i].status != Open
    ensures OpenOnly(orders) == []
    decreases |orders|
  {
    if |orders| > 0 {
      NoneOpenNoneListed(orders[..|orders| - 1]);
    }
  }

  // ---------------------------------------------------------------------------
  // Balances stay non-negative for buys and sells

  lemma ProductNonNegative(a: real, b: real)
    requires a >= 0.0 && b >= 0.0
    ensures a * b >= 0.0
  {
  }

  lemma SameBalancesNonNegative(a: map<string, real>, b: map<string, real>)
    requires SameBalances(a, b) && NonNegative(b)
    ensures NonNegative(a)
  {
    forall asset | asset in a
      ensures a[asset] >= 0.0
    {
      assert Balance(a, asset) == Balance(b, asset);
    }
  }

  /** Settling a funded buy or sell of non-negative size and price keeps
      every balance non-negative. */
  lemma SettleKeepsNonNegative(b: map<string, real>, o: VenueOrder)
    requires o.side == Buy || o.side == Sell
    requires o.quantity >= 0.0 && o.price >= 0.0
    requires Funded(b, o.symbol, o.side, o.quantity, o.price) && NonNegative(b)
    ensures NonNegative(Settle(b, o))
  {
    var r := Settle(b, o);
    forall asset | asset in r
      ensures r[asset] >= 0.0
    {
      SettledLegNonNegative(b, o, asset);
    }
  }

  lemma SettledLegNonNegative(b: map<string, real>, o: VenueOrder, asset: string)
    requires o.side == Buy || o.side == Sell
    requires o.quantity >= 0.0 && o.price >= 0.0
    requires Funded(b, o.symbol, o.side, o.quantity, o.price) && NonNegative(b)
    ensures Balance(Settle(b, o), asset) >= 0.0
  {
    if asset == Cash {
      assert Balance(b, Cash) >= 0.0;
      SettledCashNonNegative(b, o);
    } else if asset == o.symbol {
      SettledSymbolNonNegative(b, o);
    } else {
      assert Balance(b, asset) >= 0.0;
    }
  }

  lemma SettledCashNonNegative(b: map<string, real>, o: VenueOrder)
    requires o.side == Buy || o.side == Sell
    requires o.quantity >= 0.0 && o.price >= 0.0 && Balance(b, Cash) >= 0.0
    requires o.side == Buy ==> Balance(b, Cash) >= o.quantity * o.price
    requires o.side == Sell && o.symbol == Cash ==> Balance(b, Cash) >= o.quantity
    ensures Balance(Settle(b, o), Cash) >= 0.0
  {
    ProductNonNegative(o.quantity, o.price);
    CashAfterSettle(Balance(b, Cash), o.quantity * o.price, o.quantity, o.side == Buy, o.symbol == Cash);
  }

  lemma SettledSymbolNonNegative(b: map<string, real>, o: VenueOrder)
    requires o.side == Buy || o.side == Sell
    requires o.quantity >= 0.0 && o.symbol != Cash
    requires Funded(b, o.symbol, o.side, o.quantity, o.price) && NonNegative(b)
    ensures Balance(Settle(b, o), o.symbol) >= 0.0
  {
    assert Balance(b, o.symbol) >= 0.0;
  }

  /** The arithmetic of the cash leg: funded, it never goes below zero. */
  lemma CashAfterSettle(cash: real, amount: real, quantity: real, buy: bool, onCash: bool)
    requires cash >= 0.0 && amount >= 0.0 && quantity >= 0.0
    requires buy ==> cash >= amount
    requires !buy && onCash ==> cash >= quantity
    ensures cash + (if buy then -amount else amount) + (if onCash then (if buy then quantity else -quantity) else 0.0) >= 0.0
  {
  }

  /** A "buy" or "sell" of a non-negative quantity at a non-negative price
      keeps every balance non-negative. */
  lemma PlaceKeepsNonNegative(v: Venue, symbol: string, side: string, quantity: real, price: real)
    requires side == "buy" || side == "sell"
    requires quantity >= 0.0 && price >= 0.0
    requires NoOpenOrders(v) && NonNegative(v.balances)
    ensures NonNegative(PlaceOrder(v, symbol, side, quantity, price).venue.balances)
  {
    var r := PlaceOrder(v, symbol, side, quantity, price);
    PlacedOrderSettles(v, symbol, side, quantity, price);
    if v.connected && r.value == "" {
      SameBalancesNonNegative(r.venue.balances, v.balances);
    } else if r.value != "" {
      var o := VenueOrder(r.value, symbol, ParseSide(side), quantity, price, Open);
      SettleKeepsNonNegative(v.balances, o);
      SameBalancesNonNegative(r.venue.balances, Settle(v.balances, o));
    }
  }

  /** Calls whose orders are all a "buy" or a "sell" of non-negative size
      and price. */
  predicate Plain(c: Call) {
    WellFormed(c) && (c.Place? ==> (c.side == "buy" || c.side == "sell") && c.quantity >= 0.0 && c.price >= 0.0)
  }

  /** Starting from a fresh venue, plain calls never drive a balance below 0. */
  lemma {:induction false} RunKeepsNonNegative(calls: seq<Call>)
    requires forall i :: 0 <= i < |calls| ==> Plain(calls[i])
    ensures AllWellFormed(calls)
    ensures NonNegative(Run(NewVenue(), calls).balances)
    decreases |calls|
  {
    if |calls| > 0 {
      var front := calls[..|calls| - 1];
      var c := calls[|calls| - 1];
      RunKeepsNonNegative(front);
      var v := Run(NewVenue(), front);
      RunKeepsNoOpenOrders(NewVenue(), front);
      StepKeepsNonNegative(v, c);
    }
  }

  /** One plain call on a venue with no open order keeps balances non-negative. */
  lemma StepKeepsNonNegative(v: Venue, c: Call)
    requires Plain(c) && NoOpenOrders(v) && NonNegative(v.balances)
    ensures NonNegative(Step(v, c).balances)
  {
    match c
    case Place(symbol, side, quantity, price) =>
      PlaceKeepsNonNegative(v, symbol, side, quantity, price);
    case Fill(id) =>
      FillWithNothingOpen(v, id);
    case _ =>
  }

  /** A side other than "buy" or "sell" passes no balance check and settles
      as a sell. */
  lemma OtherSideSettlesAsSell(v: Venue, symbol: string, side: string, quantity: real, price: real)
    requires side != "buy" && side != "sell" && symbol != Cash
    requires v.connected && NoOpenOrders(v)
    ensures PlaceOrder(v, symbol, side, quantity, price).value == OrderIdText(v.nextOrderId)
    ensures Balance(PlaceOrder(v, symbol, side, quantity, price).venue.balances, symbol) == Balance(v.balances, symbol) - quantity
    ensures Balance(PlaceOrder(v, symbol, side, quantity, price).venue.balances, Cash) == Balance(v.balances, Cash) + quantity * price
  {
    OtherSideAccepted(v, symbol, side, quantity, price);
    SettledReplyAsSell(v.balances, PlaceOrder(v, symbol, side, quantity, price), symbol, side, quantity, price);
  }

  /** An unrecognised side is accepted under the next id and settled. */
  lemma OtherSideAccepted(v: Venue, symbol: string, side: string, quantity: real, price: real)
    requires side != "buy" && side != "sell"
    requires v.connected && NoOpenOrders(v)
    ensures var r := PlaceOrder(v, symbol, side, quantity, price);
      r.value == OrderIdText(v.nextOrderId)
      && SameBalances(r.venue.balances, Settle(v.balances, VenueOrder(r.value, symbol, Other(side), quantity, price, Open)))
  {
    assert Funded(v.balances, symbol, ParseSide(side), quantity, price);
    PlacedOrderSettles(v, symbol, side, quantity, price);
  }

  lemma SettledReplyAsSell(b: map<string, real>, r: Reply<string>, symbol: string, side: string,
                           quantity: real, price: real)
    requires symbol != Cash
    requires SameBalances(r.venue.balances, Settle(b, VenueOrder(r.value, symbol, Other(side), quantity, price, Open)))
    ensures Balance(r.venue.balances, symbol) == Balance(b, symbol) - quantity
    ensures Balance(r.venue.balances, Cash) == Balance(b, Cash) + quantity * price
  {
    SettledAsSell(b, r.venue.balances, VenueOrder(r.value, symbol, Other(side), quantity, price, Open));
  }

  lemma SettledAsSell(b: map<string, real>, after: map<string, real>, o: VenueOrder)
    requires o.side.Other? && o.symbol != Cash
    requires SameBalances(after, Settle(b, o))
    ensures Balance(after, o.symbol) == Balance(b, o.symbol) - o.quantity
    ensures Balance(after, Cash) == Balance(b, Cash) + o.quantity * o.price
  {
    assert Balance(after, o.symbol) == Balance(Settle(b, o), o.symbol);
    assert Balance(after, Cash) == Balance(Settle(b, o), Cash);
  }

  /** After logging in to a fresh venue, "BUY" (upper case) 1 AAPL at 150
      is accepted as SIM_1 and leaves the account short one AAPL. */
  lemma UpperCaseBuyGoesShort()
    ensures var v := Authenticate(NewVenue(), Credentials("key", "", "", true)).venue;
      var r := PlaceOrder(v, "AAPL", "BUY", 1.0, 150.0);
      r.value == "SIM_1" && Balance(r.venue.balances, "AAPL") == -1.0
      && Balance(r.venue.balances, Cash) == 10150.0
  {
    var v := Authenticate(NewVenue(), Credentials("key", "", "", true)).venue;
    OtherSideSettlesAsSell(v, "AAPL", "BUY", 1.0, 150.0);
    assert IntToString(1) == "1";
  }

  // ---------------------------------------------------------------------------
  // Order ids

  /** No call moves the counter backwards; a connected placement moves it by one. */
  lemma StepCounter(v: Venue, c: Call)
    requires WellFormed(c)
    ensures v.nextOrderId <= Step(v, c).nextOrderId
    ensures c.Place? && v.connected ==> Step(v, c).nextOrderId == v.nextOrderId + 1
  {
    match c
    case Place(symbol, side, quantity, price) =>
      assert Step(v, c) == PlaceOrder(v, symbol, side, quantity, price).venue;
    case Fill(id) =>
      assert Step(v, c).nextOrderId == v.nextOrderId;
    case _ =>
  }

  lemma {:induction false} RunCounter(v: Venue, calls: seq<Call>)
    requires AllWellFormed(calls)
    ensures v.nextOrderId <= Run(v, calls).nextOrderId
    decreases |calls|
  {
    if |calls| > 0 {
      RunCounter(v, calls[..|calls| - 1]);
      StepCounter(Run(v, calls[..|calls| - 1]), calls[|calls| - 1]);
    }
  }

  /** Two accepted placements, with any calls in between, return different ids. */
  lemma PlacedIdsDiffer(v: Venue, first: Call, between: seq<Call>, second: Call)
    requires first.Place? && second.Place? && AllWellFormed(between)
    ensures var a := PlaceOrder(v, first.symbol, first.side, first.quantity, first.price);
      var w := Run(a.venue, between);
      var b := PlaceOrder(w, second.symbol, second.side, second.quantity, second.price);
      a.value != "" && b.value != "" ==> a.value != b.value
  {
    var a := PlaceOrder(v, first.symbol, first.side, first.quantity, first.price);
    var w := Run(a.venue, between);
    var b := PlaceOrder(w, second.symbol, second.side, second.quantity, second.price);
    if a.value != "" && b.value != "" {
      RunCounter(a.venue, between);
      if a.value == b.value {
        OrderIdInjective(v.nextOrderId, w.nextOrderId);
      }
    }
  }

  /** Logging in with "test" and buying 10 AAPL at 150 succeeds, paying 1500. */
  lemma OrderPlacementExample()
    ensures var v := Authenticate(NewVenue(), Credentials("test", "", "", true)).venue;
      var r := PlaceOrder(v, "AAPL", "buy", 10.0, 150.0);
      r.value == "SIM_1" && Balance(r.venue.balances, Cash) == 8500.0
      && Balance(r.venue.balances, "AAPL") == 10.0
  {
    var v := Authenticate(NewVenue(), Credentials("test", "", "", true)).venue;
    PlacedOrderSettles(v, "AAPL", "buy", 10.0, 150.0);
    assert IntToString(1) == "1";
  }
}
